=== FILE: README.md ===
# Sincore swap aggregator — a Dafny model

Sincore is an on-chain swap aggregator. A trader sells `amountIn` of a
source asset (ether or an ERC-20 token) for a destination asset. The trade
goes through one registered trading route (a venue adapter such as Uniswap,
Sushiswap or Curve) or is split across several. The contract keeps a fee
in basis points of the gross output and pays it to a partner wallet. Every
other unit goes to the trader, and the contract holds nothing once a trade
is over. A holder of at least `eligibleAmount` of the loyalty token trades
free of fees. A read-only query contract ranks routes: `oneRoute` picks the
single best route, and `splitTwoRoutes` picks the best two-route split with
its volume percentages.

The model has six files:

- `common.dfy` (`Common`): addresses, assets (ether is the reserved
  `0xEeee…EEeE` address), `Option`/`Result`, the revert reasons, and the
  events. `Sum` adds up sequences of amounts.
- `ledger.dfy` (`Ledger`): every balance of every asset in one map.
  `Transfer` moves an amount and fails on an insufficient balance.
  `Exchange` is a swap seen from the holder's side. `Moved` states how two
  ledgers differ.
- `fee_engine.dfy` (`FeeEngine`): the fee `floor(gross * bps / 10000)`, the
  net, the partner-0 fallback, the loyalty exemption (`>=`), and the bounds
  between one fee on a sum of legs and one fee per leg.
- `swap_contract.dfy` (`SwapContract`): the rate views
  `getDestinationReturnAmount` and `getDestinationReturnAmountForSplitTrades`.
  The class `SincoreSwap` holds the routes, the partners, the loyalty
  settings, the ledger and the event log. Its methods are `trade`,
  `splitTrades` and the owner-only setters and sweeps.
- `best_rate_query.dfy` (`BestRateQuery`): `oneRoute` as a recursive
  maximum over the candidates' quotes, the reference ranking (sort by
  amount in descending order and take the first entry), and
  `splitTwoRoutes` as a read-only search over route pairs and volume
  fractions.
- `fee_examples.dfy` (`FeeExamples`): the recorded mainnet-fork amounts,
  replayed on the model.

A venue's pricing is not part of the model. It is the parameter `market`,
which gives the gross output of a route for `(src, dest, amountIn)` or
`None` when the route cannot quote. Executing a leg pays exactly what the
venue quotes.

## Model

| member | source | states |
|---|---|---|
| FeeEngine.Fee | test/SincoreSwap.spec.ts:120-134 | the fee is `gross * bps / 10000` rounded down (both bounds of the floor); it never exceeds the gross at a rate of at most 100%; a 0 rate charges nothing |
| FeeEngine.ChargedFee | test/SincoreSwapPriviledge.spec.ts:110-196 | an exempt trader pays no fee; otherwise the fee is the rounded-down basis-point fee |
| FeeEngine.NetAmount | test/SincoreSwap.spec.ts:229-243 | net plus charged fee equals the gross; at a 0 rate or for an exempt trader the net is the whole gross |
| FeeEngine.ResolvePartnerIndex | test/SincoreSwap.spec.ts:160-174 | an index in the partner table is kept; any index outside it bills partner 0 |
| FeeEngine.EligibleForFreeTrade | test/SincoreSwapPriviledge.spec.ts:136 | a trader is eligible exactly when a loyalty token is set and the trader holds at least `eligibleAmount` of it; with no token set nobody is |
| FeeEngine.EligibilityThreshold | test/SincoreSwapPriviledge.spec.ts:110-196 | holding exactly `eligibleAmount` exempts, one unit less does not, and nobody is exempt while no loyalty token is set |
| FeeEngine.FeeOfSum | test/SincoreSwap.spec.ts:136-158 | the fee on `a + b` is the sum of the two fees or one unit more |
| FeeEngine.FeeOnTotalBounds | test/SincoreSwap.spec.ts:136-158 | one fee on the summed gross of n legs is at least the sum of the per-leg fees and at most n - 1 units above it |
| FeeEngine.LegNetsIsSumLessFees | test/SincoreSwap_StrategySplitTrades.spec.ts:110-131 | the per-leg nets and the per-leg fees together make up the summed gross |
| FeeEngine.SplitNetAgainstLegNets | test/SincoreSwap_StrategySplitTrades.spec.ts:110-131 | a split quote is at most the sum of the legs' own quotes and at most n - 1 units below it |
| SwapContract.RouteGross | test/SincoreSwap_StrategySingleRoute.spec.ts:184-213 | a leg quotes exactly when its route index is registered and the venue can price it; an unregistered index fails as such |
| SwapContract.LegGrosses | test/SincoreSwap_StrategySplitTrades.spec.ts:225-266 | the legs succeed exactly when every leg quotes, and then leg i's gross is the venue's quote for leg i |
| SwapContract.LegGrossesFirstFailure | test/SincoreSwap_StrategySplitTrades.spec.ts:225-266 | when the first failing leg is leg i, the legs fail with leg i's error whatever later legs do |
| SwapContract.LegGrossesOfQuotes | test/SincoreSwap_StrategySplitTrades.spec.ts:225-266 | when every leg quotes, the legs' grosses are exactly those quotes |
| SwapContract.Settle | test/SincoreSwap.spec.ts:246-280 | the settlement's gross is the venue's output; the billed partner is the resolved one (partner 0 for an unknown index) with its wallet; fee and net follow that partner's rate and the exemption |
| SwapContract.GetDestinationReturnAmount | test/SincoreSwap.spec.ts:120-134 | the view quotes exactly when the route does, and the quote is the gross less the partner's fee |
| SwapContract.GetDestinationReturnAmountForSplitTrades | test/SincoreSwap.spec.ts:398-461 | empty routes and a length mismatch are refused; otherwise every leg must quote and the result is the summed gross less one fee on that sum |
| SwapContract.PayOut | test/SincoreSwap_StrategySingleRoute.spec.ts:184-213 | the payout moves the fee to the partner wallet and the net to the trader out of custody, and touches no other balance |
| SwapContract.SettlementBalances | test/SincoreSwap_StrategySingleRoute.spec.ts:216-256 | after custody took `amountIn` and received the gross, the payout leaves exactly the trader's payment, the trader's net and the partner's fee as the changes from before the trade |
| SwapContract.TradeMatchesQuote | test/SincoreSwap_StrategySingleRoute.spec.ts:184-213 | without exemption, `trade` succeeds exactly when `getDestinationReturnAmount` quotes at least `minDestAmount`; it pays that quote and otherwise fails with the quote's error or "destination amount is too low" |
| SwapContract.TradeSettlementOutcome | test/SincoreSwap.spec.ts:357-376 | an uncovered `amountIn` is refused first; a successful trade has gross = venue quote, fee + net = gross, net >= `minDestAmount`, no fee when exempt, and the floored partner fee otherwise |
| SwapContract.SplitTradeMatchesQuote | test/SincoreSwap_StrategySplitTrades.spec.ts:225-266 | without exemption, `splitTrades` succeeds exactly when the split view quotes at least `minDestAmount`, pays that quote and otherwise fails with the view's error or the slippage error |
| SwapContract.SplitTradeOneFee | test/SincoreSwap.spec.ts:136-158 | a successful split trade's gross is the sum of the legs' grosses, and a single fee is charged on that sum |
| SwapContract.SplitValidationErrors | test/SincoreSwap.spec.ts:398-461 | "routes can not be empty" and then "lengths mismatch", for both the view and the trade; the trade then refuses amounts that do not add up to the total |
| SwapContract.FallbackPartnerBilling | test/SincoreSwap.spec.ts:246-280 | an unknown partner index bills partner 0: its rate, its wallet, and index 0 in `CollectFee` |
| SwapContract.FeeEventIffPositiveFee | test/SincoreSwap.spec.ts:282-311 | `CollectFee` is emitted exactly when the fee is positive, and only first; the last event is `Trade` with the net |
| SwapContract.CustodianNeutral | test/SincoreSwap_StrategySingleRoute.spec.ts:229-232 | a settled trade leaves every balance of the contract unchanged, changes only the trader's balances and the wallet's `dest` balance, and trader and wallet gain the whole gross |
| SwapContract.SincoreSwap.constructor | test/SincoreSwap.spec.ts:76-89 | the deployer is the owner, partner 0 is "Sincore" at 10 bps paying to the reserve, there is no loyalty token, and the threshold is 10 tokens |
| SwapContract.ExemptionAfterPull | test/SincoreSwapPriviledge.spec.ts:110-196 | selling another asset leaves the exemption as the view reports it; selling the loyalty token itself exempts only a trader still holding the threshold afterwards, so a trader holding exactly the threshold who sells some pays the fee |
| SwapContract.SincoreSwap.IsEligibleForFreeTrade | test/SincoreSwapPriviledge.spec.ts:136-306 | the view answers from the current balances: a loyalty token is set and the trader holds at least the threshold; it predicts the exemption of every trade selling another asset |
| SwapContract.SincoreSwap.Trade | test/SincoreSwap_StrategySingleRoute.spec.ts:141-213 | the outcome is the settlement decided on the state before the call, with the exemption decided on the trader's loyalty balance after `amountIn` has been pulled; on success the ledger changes by exactly the settlement delta, and the log gains the venue's `Trade`, then `CollectFee` when a fee is charged, then `Trade`; on failure nothing changes |
| SwapContract.SincoreSwap.SplitTrades | test/SincoreSwap_StrategySplitTrades.spec.ts:180-266 | as `Trade` (the exemption decided after `totalAmountIn` has been pulled), with the four validations first and one venue `Trade` per leg in leg order |
| SwapContract.SincoreSwap.ExecuteSplitTrade | test/SincoreSwap_StrategySplitTrades.spec.ts:269-348 | on a working copy of the ledger, the outcome is exactly the split settlement decided on the current state, argument checks included; on success the returned ledger differs by exactly the settlement delta and the returned events are the venues' then the contract's |
| SwapContract.SincoreSwap.ExecuteLegs | test/SincoreSwap_StrategySplitTrades.spec.ts:225-266 | the legs are executed one by one; the result is the legs' grosses, and custody gives the summed `amountIns` and receives the summed grosses |
| SwapContract.SincoreSwap.UpdateEligibleAmount | test/SincoreSwapPriviledge.spec.ts:198-213 | the owner sets the threshold and `UpdateEligibleAmount` is logged; anyone else is refused and nothing changes |
| SwapContract.SincoreSwap.UpdateSincoreToken | test/SincoreSwapPriviledge.spec.ts:76-91 | the owner sets the loyalty token and `UpdateSincoreToken` is logged; anyone else is refused and nothing changes |
| SwapContract.SincoreSwap.CollectRemainingToken | test/SincoreSwap.spec.ts:331-355 | the owner sweeps `amount` of a token from the contract to the owner; anyone else, or an amount above the holding, is refused and nothing changes |
| SwapContract.SincoreSwap.CollectRemainingEther | test/SincoreSwap.spec.ts:314-349 | the same for ether |
| BestRateQuery.Quote | test/bestRate/SincoreBestRateQuery.spec.ts:150-166 | a route's quote is the sentinel exactly when `getDestinationReturnAmount` fails, and otherwise it is that view's result |
| BestRateQuery.AmountOuts | test/bestRate/SincoreBestRateQuery.spec.ts:150-166 | one quote per candidate, in candidate order |
| BestRateQuery.BestIndex | test/bestRate/SincoreBestRateQuery.spec.ts:196-214 | the chosen position holds a value no smaller than any other |
| BestRateQuery.OneRoute | test/bestRate/SincoreBestRateQuery.spec.ts:196-214 | an empty candidate list is refused; otherwise the answer is some candidate with its own quote, and no candidate quotes more |
| BestRateQuery.OneRoutePrefersWorkingRoute | test/bestRate/SincoreBestRateQuery.spec.ts:136-144 | if any candidate quotes (even 0), the answer is a working route whose amount is exactly its rate-view quote |
| BestRateQuery.OneRouteAllFailing | test/bestRate/SincoreBestRateQuery.spec.ts:150-166 | when every candidate fails, the query still answers, with the sentinel |
| BestRateQuery.RouteAmounts | test/bestRate/SincoreBestRateQuery.spec.ts:150-166 | each candidate paired with its quote, in candidate order |
| BestRateQuery.Insert | test/bestRate/SincoreBestRateQuery.spec.ts:168-173 | inserting into a descending list gives a descending list with the same elements plus the new one |
| BestRateQuery.SortDescending | test/bestRate/SincoreBestRateQuery.spec.ts:168-173 | the result is descending by amount and a permutation of the input |
| BestRateQuery.BestRateFromAmountOuts | test/bestRate/SincoreBestRateQuery.spec.ts:168-173 | the first entry after sorting is an input entry whose amount is at least every other |
| BestRateQuery.ReferenceRankingAgrees | test/bestRate/SincoreBestRateQuery.spec.ts:196-214 | `oneRoute`'s amount equals the amount the reference ranking puts first |
| BestRateQuery.ReferenceRankingSameRoute | test/bestRate/SincoreBestRateQuery.spec.ts:196-214 | when one candidate quotes strictly more than every other (failing candidates may share the sentinel), `oneRoute`'s route is also the one the reference ranking puts first |
| BestRateQuery.Steps | test/bestRate/SincoreBestRateQuery_TwoRoutes.spec.ts:242-248 | the number of fraction steps is the granularity, and at least one |
| BestRateQuery.Volume | test/bestRate/SincoreBestRateQuery_TwoRoutes.spec.ts:250-254 | route A's volume is a percentage of at most 100: 0 at the first step and 100 at the last |
| BestRateQuery.FirstLegAmount | test/bestRate/SincoreBestRateQuery_TwoRoutes.spec.ts:322-323 | the first leg is `amountIn * volume / 100` rounded down (both floor bounds) and never exceeds `amountIn`; all of it at 100% and nothing at 0% |
| BestRateQuery.LegQuote | test/bestRate/SincoreBestRateQuery_TwoRoutes.spec.ts:376-377 | an empty leg yields 0; any other leg yields its quote |
| BestRateQuery.Plan | test/bestRate/SincoreBestRateQuery_TwoRoutes.spec.ts:242-286 | a plan names candidates i and j, its volumes sum to 100, and its output is the sentinel or non-negative |
| BestRateQuery.PlanLegs | test/bestRate/SincoreBestRateQuery_TwoRoutes.spec.ts:322-323 | the two leg amounts make up `amountIn`; a plan works exactly when both legs do, and then its output is the sum of the legs' quotes |
| BestRateQuery.PlanSingleRoute | test/bestRate/SincoreBestRateQuery_TwoRoutes.spec.ts:272-282 | for a positive `amountIn`, the plan sending everything through one candidate yields exactly that candidate's quote |
| BestRateQuery.BestFraction | test/bestRate/SincoreBestRateQuery_TwoRoutes.spec.ts:276-282 | the chosen fraction step is no worse than any other step for the pair |
| BestRateQuery.BestPartner | test/bestRate/SincoreBestRateQuery_TwoRoutes.spec.ts:276-282 | the chosen second route and step are no worse than any other pair with the same first route |
| BestRateQuery.BestGridPoint | test/bestRate/SincoreBestRateQuery_TwoRoutes.spec.ts:276-282 | the chosen grid point is no worse than any other |
| BestRateQuery.SplitCoversOneRoute | test/bestRate/SincoreBestRateQuery_TwoRoutes.spec.ts:272-282 | for a positive `amountIn`, a split at least as good as every grid plan (pairs of different routes at every fraction, and each candidate alone) is at least as good as `oneRoute` |
| BestRateQuery.SplitTwoRoutes | test/bestRate/SincoreBestRateQuery_TwoRoutes.spec.ts:412-425 | an empty candidate list is refused; otherwise the result is a grid plan (two candidates naming different routes at a fraction step, or one candidate alone) whose volumes sum to 100, whose two routes differ unless the first takes 100%, no grid plan yields more, and for a positive `amountIn` it is never worse than `oneRoute` |
| BestRateQuery.SplitPlanSettlesAsQuoted | test/bestRate/SincoreBestRateQuery_TwoRoutes.spec.ts:322-335 | trading a two-leg plan through `splitTrades` pays the plan's output or one unit less |
| FeeExamples.SingleRouteFeeExample | test/SincoreSwap_StrategySingleRoute.spec.ts:216-245 | 3500 DAI to ether: the trader gets 2564145416696050673 and the reserve 2566712128824875; the events are `CollectFee` and then `Trade` |
| FeeExamples.SingleRouteSlippageExample | test/SincoreSwap.spec.ts:358-376 | a minimum one unit above the net is refused as "destination amount is too low", and the net itself is accepted |
| FeeExamples.PartnerFallbackExample | test/SincoreSwap.spec.ts:246-280 | partner indexes 1001 and 2501 are billed as partner 0 |
| FeeExamples.ZeroFeeExample | test/SincoreSwap.spec.ts:282-311 | at a 0 rate the trader gets the whole gross and only `Trade` is emitted |
| FeeExamples.SplitRateExample | test/SincoreSwap_StrategySplitTrades.spec.ts:110-131 | the (2 + 3) ether split: the legs quote 2708790413059729615645 and 4041679567422106905198 alone, and the split quotes 6750469980481836520842 |
| FeeExamples.SplitTradeFeeExample | test/SincoreSwap_StrategySplitTrades.spec.ts:269-299 | the (1200, 3200) DAI split: the trader gets 3236143668644293065 and the reserve 3239383051695989 |
| FeeExamples.LoyaltyExamples | test/SincoreSwapPriviledge.spec.ts:107-196 | at the default threshold, 10 and 2500 tokens exempt and 5.1 does not |
| FeeExamples.OneRouteExample | test/bestRate/SincoreBestRateQuery.spec.ts:136-166 | a registered route whose quote fails (Curve) is recorded as the sentinel, and Uniswap's quote wins |

## Left out

- Venue pricing, slippage inside a venue and the venues' own balances are
  not modelled. A leg's gross output is the `market` parameter, and the
  source tokens a venue receives simply leave the ledger.
- ERC-20 and ether mechanics are not modelled: allowances, `msg.value`
  checks, the wrapping of ether, and gas. Every asset is a balance in one
  ledger, and transfers fail on an insufficient balance.
- The registry setters `addTradingRoute` and `updatePartner`, venue
  whitelisting and ownership transfer are not modelled. Tests only use them
  to set the state up, so routes and partners are fields.
- A route's active/inactive flag is not modelled, because no test
  covers it.
- SwapContract.SplitValidationErrors: the `AmountsMismatch` refusal of
  per-leg amounts that do not add up to `totalAmountIn` is an assumption of the
  model; no test fixes it.
- `getDestinationReturnAmount` and `getDestinationReturnAmountForSplitTrades`
  do not apply the loyalty exemption. Only `trade` and `splitTrades` do.
- The gas budget of `splitTwoRoutes` is not modelled, and neither is any
  failure when the budget is exceeded.
- BestRateQuery.SplitTwoRoutes: not its exact search policy. The recorded
  volumes (32/68 at granularity 4) show that the query refines beyond the
  step grid. The model searches every ordered pair of candidates naming
  different routes at fractions `100 * k / granularity`, and every
  candidate alone. It
  proves only optimality over that grid and, for a positive `amountIn`,
  never being worse than `oneRoute`. For an `amountIn` of 0 every grid plan
  yields 0 (see `LegQuote`), while `oneRoute` returns whatever the venues
  quote for 0, so that comparison is not promised there.
- Venue pricing has no state (`Market`), so two legs through the same
  venue are each priced as if the other had not executed. On a venue with
  price impact, two such legs can yield more in the model than one trade
  of their sum would. `SwapContract.SplitTradeMatchesQuote` and
  `SincoreSwap.SplitTrades` therefore overstate a split trade that repeats
  a route index. The split search never pairs a route with itself: its grid
  compares route indexes, not list positions, so a candidate list that
  repeats a route index does not bring such a plan back.
- SincoreSwap.Trade and SincoreSwap.SplitTrades decide the exemption on
  the trader's loyalty balance after `amountIn` has been pulled into
  custody, as the order of the trade's steps implies. The tests never sell
  the loyalty token, so they do not fix this choice.
- BestRateQuery.LegQuote: a leg of amount 0 yields 0 without asking the
  venue. This is an assumption of the model; no test covers it.
- BestRateQuery.OneRoute: the tie-break between equal quotes is not stated
  (the search keeps the first largest quote). The reference sort's
  comparator never answers "equal", so the test's order on ties is not
  defined.
- BestRateQuery.Quote: a failing quote is recorded as -1. The test helper
  uses -1 scaled to the destination's decimals. Only the order of the
  sentinel against real quotes matters.
- The order of `CollectFee` before `Trade` in a trade's event log
  (`SettlementEvents`, `FeeEventIffPositiveFee`, `SincoreSwap.Trade`,
  `SincoreSwap.SplitTrades`, `SingleRouteFeeExample`) is a modelling
  choice. The tests check that each event is emitted with its arguments,
  not their order.
- Amounts are unbounded `nat`s, not uint256. `gross * feeBps` in the fee
  and the summed gross of a split cannot overflow or revert in the model.
- A partner's fee rate is a `FeeRate`, at most 10000 basis points. A rate
  above 100% cannot be represented, so the model does not say what the
  contract would do with one.
- The `Trade` event each venue emits names the venue by its registered
  route index, not by the adapter's address.


=== FILE: best_rate_query.dfy ===
/** SincoreBestRateQuery: read-only route discovery over the swap contract's
    rate view. `oneRoute` picks the candidate with the best fee-inclusive
    quote; `splitTwoRoutes` searches pairs of candidates and volume
    fractions for the best two-leg split. A quote that fails is recorded as
    a negative sentinel instead of aborting the query. */
module BestRateQuery {
  import opened Common
  import opened FeeEngine
  import opened SwapContract

  /** The sentinel recorded for a quote that failed. */
  const FailedQuote: int := -1

  /** What the query reads from the swap contract: its routes, its partner
      table and the venues' pricing. */
  datatype Venues = Venues(routes: seq<TradingRoute>, partners: seq<Partner>, market: Market)
  {
    predicate Valid()
    {
      |partners| > 0
    }
  }

  datatype OneRouteResult = OneRouteResult(routeIndex: nat, amountOut: int)

  /** A candidate and its quote, as the reference ranking records them. */
  datatype RouteAmount = RouteAmount(routeIndex: nat, amount: int)

  datatype SplitResult = SplitResult(routeIndexA: nat, routeIndexB: nat, volumeA: nat, volumeB: nat, amountOut: int)

  /** The fee-inclusive quote of one route, billed to partner 0, with a
      failing quote caught and recorded as the sentinel. */
  function Quote(v: Venues, routeIndex: nat, src: Asset, dest: Asset, amountIn: nat): (q: int)
    requires v.Valid()
    ensures q == FailedQuote <==> GetDestinationReturnAmount(v.routes, v.partners, v.market, routeIndex, src, dest, amountIn, 0).Err?
    ensures q != FailedQuote ==> q == GetDestinationReturnAmount(v.routes, v.partners, v.market, routeIndex, src, dest, amountIn, 0).value
  {
    match GetDestinationReturnAmount(v.routes, v.partners, v.market, routeIndex, src, dest, amountIn, 0)
    case Err(_) => FailedQuote
    case Ok(net) => net
  }

  /** The quotes of the candidates, in candidate order. */
  function AmountOuts(v: Venues, src: Asset, dest: Asset, amountIn: nat, candidates: seq<nat>): (qs: seq<int>)
    requires v.Valid()
    ensures |qs| == |candidates|
    ensures forall i :: 0 <= i < |candidates| ==> qs[i] == Quote(v, candidates[i], src, dest, amountIn)
  {
    seq(|candidates|, i requires 0 <= i < |candidates| => Quote(v, candidates[i], src, dest, amountIn))
  }

  /** The position of a largest element; a later element replaces the
      best so far only when strictly larger. */
  function BestIndex(qs: seq<int>): (k: nat)
    requires |qs| > 0
    ensures k < |qs|
    ensures forall i :: 0 <= i < |qs| ==> qs[i] <= qs[k]
  {
    if |qs| == 1 then 0
    else
      var b := BestIndex(qs[..|qs| - 1]);
      if qs[|qs| - 1] > qs[b] then |qs| - 1 else b
  }

  /** `oneRoute`: the candidate with the largest quote and that quote. An
      empty candidate list is refused; failing candidates do not abort the
      query. */
  function OneRoute(v: Venues, src: Asset, dest: Asset, amountIn: nat, candidates: seq<nat>): (r: Result<OneRouteResult>)
    requires v.Valid()
    ensures r.Err? <==> |candidates| == 0
    ensures r.Err? ==> r.error == RoutesEmpty
    ensures r.Ok? ==> exists k :: 0 <= k < |candidates| && r.value.routeIndex == candidates[k]
                                  && r.value.amountOut == Quote(v, candidates[k], src, dest, amountIn)
    ensures r.Ok? ==> forall i :: 0 <= i < |candidates| ==> Quote(v, candidates[i], src, dest, amountIn) <= r.value.amountOut
  {
    if |candidates| == 0 then Err(RoutesEmpty)
    else
      var qs := AmountOuts(v, src, dest, amountIn, candidates);
      var k := BestIndex(qs);
      Ok(OneRouteResult(candidates[k], qs[k]))
  }

  /** A working route wins over failing ones, even when it quotes 0: the
      result is then a real quote, the one the rate view gives for the
      returned route. */
  lemma OneRoutePrefersWorkingRoute(v: Venues, src: Asset, dest: Asset, amountIn: nat, candidates: seq<nat>, w: nat)
    requires v.Valid() && w < |candidates|
    requires GetDestinationReturnAmount(v.routes, v.partners, v.market, candidates[w], src, dest, amountIn, 0).Ok?
    ensures OneRoute(v, src, dest, amountIn, candidates).Ok?
    ensures var r := OneRoute(v, src, dest, amountIn, candidates).value;
      && r.amountOut >= 0
      && GetDestinationReturnAmount(v.routes, v.partners, v.market, r.routeIndex, src, dest, amountIn, 0) == Ok(r.amountOut as nat)
  {
    var r := OneRoute(v, src, dest, amountIn, candidates).value;
    var k :| 0 <= k < |candidates| && r.routeIndex == candidates[k] && r.amountOut == Quote(v, candidates[k], src, dest, amountIn);
    assert Quote(v, candidates[w], src, dest, amountIn) >= 0;
  }

  /** When every candidate fails the query still answers, with the sentinel. */
  lemma OneRouteAllFailing(v: Venues, src: Asset, dest: Asset, amountIn: nat, candidates: seq<nat>)
    requires v.Valid() && |candidates| > 0
    requires forall i :: 0 <= i < |candidates| ==> GetDestinationReturnAmount(v.routes, v.partners, v.market, candidates[i], src, dest, amountIn, 0).Err?
    ensures OneRoute(v, src, dest, amountIn, candidates).Ok?
    ensures OneRoute(v, src, dest, amountIn, candidates).value.amountOut == FailedQuote
  {
    var r := OneRoute(v, src, dest, amountIn, candidates).value;
    var k :| 0 <= k < |candidates| && r.routeIndex == candidates[k] && r.amountOut == Quote(v, candidates[k], src, dest, amountIn);
  }

  // The reference ranking: record every candidate's quote, sort by amount
  // in descending order and take the first entry.

  predicate Descending(s: seq<RouteAmount>)
  {
    forall i, j :: 0 <= i < j < |s| ==> s[i].amount >= s[j].amount
  }

  /** The candidates paired with their quotes, in candidate order. */
  function RouteAmounts(v: Venues, src: Asset, dest: Asset, amountIn: nat, candidates: seq<nat>): (s: seq<RouteAmount>)
    requires v.Valid()
    ensures |s| == |candidates|
    ensures forall i :: 0 <= i < |candidates| ==> s[i] == RouteAmount(candidates[i], Quote(v, candidates[i], src, dest, amountIn))
  {
    seq(|candidates|, i requires 0 <= i < |candidates| => RouteAmount(candidates[i], Quote(v, candidates[i], src, dest, amountIn)))
  }

  /** An entry no smaller than every entry of a descending list can lead it. */
  lemma DescendingCons(h: RouteAmount, t: seq<RouteAmount>)
    requires Descending(t)
    requires forall e :: e in t ==> e.amount <= h.amount
    ensures Descending([h] + t)
  {
    forall i, j | 0 <= i < j < |[h] + t|
      ensures ([h] + t)[i].amount >= ([h] + t)[j].amount
    {
      assert ([h] + t)[j] == t[j - 1];
      if i > 0 {
        assert ([h] + t)[i] == t[i - 1];
      } else {
        assert t[j - 1] in t;
      }
    }
  }

  /** An entry larger than the head of a descending list can lead it. */
  lemma LeadsDescending(x: RouteAmount, s: seq<RouteAmount>)
    requires Descending(s) && s != [] && s[0].amount < x.amount
    ensures Descending([x] + s)
  {
    forall e | e in s
      ensures e.amount <= x.amount
    {
      var j :| 0 <= j < |s| && s[j] == e;
    }
    DescendingCons(x, s);
  }

  /** The head of a descending list still leads once a no larger entry has
      been inserted into its tail. */
  lemma HeadLeadsDescending(x: RouteAmount, s: seq<RouteAmount>, rest: seq<RouteAmount>)
    requires Descending(s) && s != [] && x.amount <= s[0].amount
    requires Descending(rest) && forall e :: e in rest ==> e == x || e in s[1..]
    ensures Descending([s[0]] + rest)
  {
    forall e | e in rest
      ensures e.amount <= s[0].amount
    {
      if e != x {
        var j :| 0 <= j < |s[1..]| && s[1..][j] == e;
        assert s[j + 1] == e;
      }
    }
    DescendingCons(s[0], rest);
  }

  /** Inserts an entry into a list sorted by descending amount, before the
      first entry with a smaller amount. */
  function Insert(x: RouteAmount, s: seq<RouteAmount>): (r: seq<RouteAmount>)
    requires Descending(s)
    ensures multiset(r) == multiset(s) + multiset{x}
    ensures forall e :: e in r ==> e == x || e in s
    ensures Descending(r)
    ensures |r| == |s| + 1
  {
    if s == [] then [x]
    else if s[0].amount < x.amount then
      LeadsDescending(x, s);
      [x] + s
    else
      assert s == [s[0]] + s[1..];
      var rest := Insert(x, s[1..]);
      HeadLeadsDescending(x, s, rest);
      [s[0]] + rest
  }

  /** The list sorted by descending amount. */
  function SortDescending(s: seq<RouteAmount>): (r: seq<RouteAmount>)
    ensures multiset(r) == multiset(s)
    ensures Descending(r)
    ensures |r| == |s|
  {
    if s == [] then []
    else
      assert s == [s[0]] + s[1..];
      Insert(s[0], SortDescending(s[1..]))
  }

  /** `bestRateFromAmountOuts`: the first entry of the sorted list. */
  function BestRateFromAmountOuts(s: seq<RouteAmount>): (top: RouteAmount)
    requires |s| > 0
    ensures top in s
    ensures forall e :: e in s ==> e.amount <= top.amount
  {
    var sorted := SortDescending(s);
    assert sorted[0] in multiset(sorted);
    forall e | e in s
      ensures e.amount <= sorted[0].amount
    {
      assert e in multiset(sorted);
      var j :| 0 <= j < |sorted| && sorted[j] == e;
    }
    sorted[0]
  }

  /** `oneRoute` answers the amount the reference ranking puts first. */
  lemma ReferenceRankingAgrees(v: Venues, src: Asset, dest: Asset, amountIn: nat, candidates: seq<nat>)
    requires v.Valid() && |candidates| > 0
    ensures OneRoute(v, src, dest, amountIn, candidates).Ok?
    ensures BestRateFromAmountOuts(RouteAmounts(v, src, dest, amountIn, candidates)).amount
            == OneRoute(v, src, dest, amountIn, candidates).value.amountOut
  {
    var s := RouteAmounts(v, src, dest, amountIn, candidates);
    var top := BestRateFromAmountOuts(s);
    var r := OneRoute(v, src, dest, amountIn, candidates).value;
    var k :| 0 <= k < |candidates| && r.routeIndex == candidates[k] && r.amountOut == Quote(v, candidates[k], src, dest, amountIn);
    assert s[k] in s;
    var m :| 0 <= m < |s| && s[m] == top;
    assert top.amount == Quote(v, candidates[m], src, dest, amountIn);
  }

  /** Candidate `w` quotes strictly more than every other candidate. */
  ghost predicate UniqueBest(v: Venues, src: Asset, dest: Asset, amountIn: nat, candidates: seq<nat>, w: nat)
    requires v.Valid()
  {
    && w < |candidates|
    && forall j :: 0 <= j < |candidates| && j != w ==>
         Quote(v, candidates[j], src, dest, amountIn) < Quote(v, candidates[w], src, dest, amountIn)
  }

  /** When one candidate quotes strictly more than every other (failing
      candidates may share the sentinel), `oneRoute` also answers the route
      the reference ranking puts first. */
  lemma ReferenceRankingSameRoute(v: Venues, src: Asset, dest: Asset, amountIn: nat, candidates: seq<nat>)
    requires v.Valid() && |candidates| > 0
    requires exists w: nat :: UniqueBest(v, src, dest, amountIn, candidates, w)
    ensures OneRoute(v, src, dest, amountIn, candidates).Ok?
    ensures BestRateFromAmountOuts(RouteAmounts(v, src, dest, amountIn, candidates)).routeIndex
            == OneRoute(v, src, dest, amountIn, candidates).value.routeIndex
  {
    var s := RouteAmounts(v, src, dest, amountIn, candidates);
    var top := BestRateFromAmountOuts(s);
    var r := OneRoute(v, src, dest, amountIn, candidates).value;
    var k :| 0 <= k < |candidates| && r.routeIndex == candidates[k] && r.amountOut == Quote(v, candidates[k], src, dest, amountIn);
    ReferenceRankingAgrees(v, src, dest, amountIn, candidates);
    var m :| 0 <= m < |s| && s[m] == top;
    var w: nat :| UniqueBest(v, src, dest, amountIn, candidates, w);
    assert s[w] in s;
    assert m == w && k == w;
  }

  // `splitTwoRoutes`: leg amounts from a volume percentage, the grid of
  // (route A, route B, fraction) plans, and the search over it.

  /** The number of fraction steps searched for a granularity (at least one). */
  function Steps(granularity: nat): (steps: nat)
    ensures steps > 0
    ensures granularity > 0 ==> steps == granularity
  {
    if granularity == 0 then 1 else granularity
  }

  lemma MulMono(a: nat, b: nat, d: nat)
    requires a <= b
    ensures a * d <= b * d
  {
    assert b * d == a * d + (b - a) * d;
  }

  /** Dividing by `d` a number at most (exactly) `m * d` gives at most
      (exactly) `m`. */
  lemma DivBounds(x: nat, d: nat, m: nat)
    requires 0 < d
    ensures x <= m * d ==> x / d <= m
    ensures x == m * d ==> x / d == m
  {
    var q := x / d;
    assert x == q * d + x % d;
    if q > m {
      MulMono(m + 1, q, d);
    } else if q < m {
      MulMono(q + 1, m, d);
    }
  }

  /** Route A's volume, in percent, at fraction step `k` of `steps`. */
  function Volume(k: nat, steps: nat): (volume: nat)
    requires 0 < steps && k <= steps
    ensures volume <= 100
    ensures k == 0 ==> volume == 0
    ensures k == steps ==> volume == 100
  {
    MulMono(k, steps, 100);
    DivBounds(100 * k, steps, 100);
    100 * k / steps
  }

  /** The first leg's amount: `amountIn * volume / 100`, rounded down; the
      second leg takes the remainder. */
  function FirstLegAmount(amountIn: nat, volume: nat): (amount: nat)
    requires volume <= 100
    ensures amount <= amountIn
    ensures volume == 100 ==> amount == amountIn
    ensures volume == 0 ==> amount == 0
    ensures amount * 100 <= amountIn * volume < (amount + 1) * 100
  {
    assert amountIn * volume <= amountIn * 100;
    amountIn * volume / 100
  }

  /** A leg's quote; a leg with nothing to swap yields nothing and is not
      quoted. */
  function LegQuote(v: Venues, routeIndex: nat, src: Asset, dest: Asset, amount: nat): (q: int)
    requires v.Valid()
    ensures amount == 0 ==> q == 0
    ensures amount > 0 ==> q == Quote(v, routeIndex, src, dest, amount)
  {
    if amount == 0 then 0 else Quote(v, routeIndex, src, dest, amount)
  }

  /** The plan at grid point (i, j, k): candidate i takes volume
      `Volume(k, steps)`, candidate j the rest. Its output is the sum of the
      two legs' quotes, or the sentinel when a leg fails. */
  function Plan(v: Venues, src: Asset, dest: Asset, amountIn: nat, candidates: seq<nat>, steps: nat, i: nat, j: nat, k: nat): (p: SplitResult)
    requires v.Valid() && i < |candidates| && j < |candidates| && 0 < steps && k <= steps
    ensures p.routeIndexA == candidates[i] && p.routeIndexB == candidates[j]
    ensures p.volumeA == Volume(k, steps) && p.volumeA + p.volumeB == 100
    ensures p.amountOut == FailedQuote || p.amountOut >= 0
  {
    var volume := Volume(k, steps);
    var a1 := FirstLegAmount(amountIn, volume);
    var q1 := LegQuote(v, candidates[i], src, dest, a1);
    var q2 := LegQuote(v, candidates[j], src, dest, amountIn - a1);
    SplitResult(candidates[i], candidates[j], volume, 100 - volume,
                if q1 == FailedQuote || q2 == FailedQuote then FailedQuote else q1 + q2)
  }

  /** The two leg amounts of a plan make up `amountIn`, and a plan that did
      not fail is paid by two working legs whose quotes add up to it. */
  lemma PlanLegs(v: Venues, src: Asset, dest: Asset, amountIn: nat, candidates: seq<nat>, steps: nat, i: nat, j: nat, k: nat)
    requires v.Valid() && i < |candidates| && j < |candidates| && 0 < steps && k <= steps
    ensures var p := Plan(v, src, dest, amountIn, candidates, steps, i, j, k);
            var a1 := FirstLegAmount(amountIn, p.volumeA);
      && a1 + (amountIn - a1) == amountIn
      && (p.amountOut >= 0 <==>
            LegQuote(v, candidates[i], src, dest, a1) != FailedQuote && LegQuote(v, candidates[j], src, dest, amountIn - a1) != FailedQuote)
      && (p.amountOut >= 0 ==>
            p.amountOut == LegQuote(v, candidates[i], src, dest, a1) + LegQuote(v, candidates[j], src, dest, amountIn - a1))
  {
  }

  /** The plan that sends everything through candidate i is candidate i's
      own quote. */
  lemma PlanSingleRoute(v: Venues, src: Asset, dest: Asset, amountIn: nat, candidates: seq<nat>, steps: nat, i: nat)
    requires v.Valid() && i < |candidates| && 0 < steps && amountIn > 0
    ensures Plan(v, src, dest, amountIn, candidates, steps, i, i, steps).amountOut == Quote(v, candidates[i], src, dest, amountIn)
  {
  }

  /** The grid the search covers: two candidates naming different routes at
      any fraction step, or one candidate taking the whole amount. A route
      is never split against itself, even when the list repeats it. */
  predicate InGrid(candidates: seq<nat>, steps: nat, i: nat, j: nat, k: nat)
  {
    i < |candidates| && j < |candidates| && k <= steps && (candidates[i] != candidates[j] || k == steps)
  }

  // The search itself ranks grid points by a valuation `value(i, j, k)`,
  // the output of the plan at that point; it keeps the first point with
  // the largest value.

  /** The best fraction step for routes i and j. */
  method BestFraction(value: (nat, nat, nat) -> int, steps: nat, i: nat, j: nat) returns (bk: nat)
    ensures bk <= steps
    ensures forall k: nat :: k <= steps ==> value(i, j, k) <= value(i, j, bk)
  {
    bk := 0;
    var k := 1;
    while k <= steps
      invariant 1 <= k <= steps + 1 && bk <= steps
      invariant forall k': nat :: k' < k ==> value(i, j, k') <= value(i, j, bk)
    {
      if value(i, j, k) > value(i, j, bk) {
        bk := k;
      }
      k := k + 1;
    }
  }

  /** The best second route and fraction step with route i first. */
  method BestPartner(value: (nat, nat, nat) -> int, n: nat, steps: nat, i: nat) returns (bj: nat, bk: nat)
    requires 0 < n
    ensures bj < n && bk <= steps
    ensures forall j: nat, k: nat :: j < n && k <= steps ==> value(i, j, k) <= value(i, bj, bk)
  {
    bj := 0;
    bk := BestFraction(value, steps, i, 0);
    var j := 1;
    while j < n
      invariant 1 <= j <= n && bj < n && bk <= steps
      invariant forall j': nat, k': nat :: j' < j && k' <= steps ==> value(i, j', k') <= value(i, bj, bk)
    {
      var k := BestFraction(value, steps, i, j);
      if value(i, j, k) > value(i, bj, bk) {
        bj, bk := j, k;
      }
      j := j + 1;
    }
  }

  /** The best grid point over all ordered pairs of routes. */
  method BestGridPoint(value: (nat, nat, nat) -> int, n: nat, steps: nat) returns (bi: nat, bj: nat, bk: nat)
    requires 0 < n
    ensures bi < n && bj < n && bk <= steps
    ensures forall i: nat, j: nat, k: nat :: i < n && j < n && k <= steps ==> value(i, j, k) <= value(bi, bj, bk)
  {
    bi := 0;
    bj, bk := BestPartner(value, n, steps, 0);
    var i := 1;
    while i < n
      invariant 1 <= i <= n && bi < n && bj < n && bk <= steps
      invariant forall i': nat, j': nat, k': nat :: i' < i && j' < n && k' <= steps ==> value(i', j', k') <= value(bi, bj, bk)
    {
      var j, k := BestPartner(value, n, steps, i);
      if value(i, j, k) > value(bi, bj, bk) {
        bi, bj, bk := i, j, k;
      }
      i := i + 1;
    }
  }

  /** A split at least as good as every grid plan is at least as good as
      the best single route, since the grid holds each route alone. */
  lemma SplitCoversOneRoute(v: Venues, src: Asset, dest: Asset, amountIn: nat, candidates: seq<nat>, steps: nat, amountOut: int)
    requires v.Valid() && |candidates| > 0 && 0 < steps && amountIn > 0
    requires forall i: nat, j: nat, k: nat :: InGrid(candidates, steps, i, j, k)
               ==> Plan(v, src, dest, amountIn, candidates, steps, i, j, k).amountOut <= amountOut
    ensures OneRoute(v, src, dest, amountIn, candidates).value.amountOut <= amountOut
  {
    var one := OneRoute(v, src, dest, amountIn, candidates).value;
    var c :| 0 <= c < |candidates| && one.routeIndex == candidates[c] && one.amountOut == Quote(v, candidates[c], src, dest, amountIn);
    PlanSingleRoute(v, src, dest, amountIn, candidates, steps, c);
    assert InGrid(candidates, steps, c, c, steps);
  }

  /** `splitTwoRoutes`: every ordered pair of candidates naming different
      routes is tried at every fraction step, and every candidate alone; the plan with the
      largest output is kept, the first one found on a tie. */
  method SplitTwoRoutes(v: Venues, src: Asset, dest: Asset, amountIn: nat, candidates: seq<nat>, granularity: nat)
    returns (r: Result<SplitResult>)
    requires v.Valid()
    ensures r.Err? <==> |candidates| == 0
    ensures r.Err? ==> r.error == RoutesEmpty
    ensures r.Ok? ==> r.value.volumeA + r.value.volumeB == 100
    ensures r.Ok? ==> r.value.routeIndexA != r.value.routeIndexB || r.value.volumeA == 100
    ensures r.Ok? ==>
      exists i: nat, j: nat, k: nat :: InGrid(candidates, Steps(granularity), i, j, k)
        && r.value == Plan(v, src, dest, amountIn, candidates, Steps(granularity), i, j, k)
    ensures r.Ok? ==>
      forall i: nat, j: nat, k: nat :: InGrid(candidates, Steps(granularity), i, j, k)
        ==> Plan(v, src, dest, amountIn, candidates, Steps(granularity), i, j, k).amountOut <= r.value.amountOut
    ensures r.Ok? && amountIn > 0 ==> OneRoute(v, src, dest, amountIn, candidates).value.amountOut <= r.value.amountOut
  {
    var n := |candidates|;
    if n == 0 {
      return Err(RoutesEmpty);
    }
    var steps := Steps(granularity);
    // Points off the grid rank below every plan, even a failing one.
    var value := (i: nat, j: nat, k: nat) =>
      if InGrid(candidates, steps, i, j, k) then Plan(v, src, dest, amountIn, candidates, steps, i, j, k).amountOut else FailedQuote - 1;
    var bi, bj, bk := BestGridPoint(value, n, steps);
    assert value(0, 0, steps) <= value(bi, bj, bk);
    assert InGrid(candidates, steps, bi, bj, bk);
    var best := Plan(v, src, dest, amountIn, candidates, steps, bi, bj, bk);
    forall i: nat, j: nat, k: nat | InGrid(candidates, steps, i, j, k)
      ensures Plan(v, src, dest, amountIn, candidates, steps, i, j, k).amountOut <= best.amountOut
    {
      assert value(i, j, k) <= value(bi, bj, bk);
    }
    if amountIn > 0 {
      SplitCoversOneRoute(v, src, dest, amountIn, candidates, steps, best.amountOut);
    }
    r := Ok(best);
  }

  /** Trading a plan through `splitTrades` pays what the plan quoted, or one
      unit less: each leg's quote carries its own rounded fee, while the
      split trade rounds one fee on the summed gross. */
  lemma SplitPlanSettlesAsQuoted(v: Venues, src: Asset, dest: Asset, amountIn: nat, candidates: seq<nat>, steps: nat, i: nat, j: nat, k: nat)
    requires v.Valid()
    requires i < |candidates| && j < |candidates| && 0 < steps && k <= steps
    requires var p := Plan(v, src, dest, amountIn, candidates, steps, i, j, k);
      0 < FirstLegAmount(amountIn, p.volumeA) < amountIn && p.amountOut >= 0
    ensures var p := Plan(v, src, dest, amountIn, candidates, steps, i, j, k);
            var a1 := FirstLegAmount(amountIn, p.volumeA);
            var settled := GetDestinationReturnAmountForSplitTrades(v.routes, v.partners, v.market, [p.routeIndexA, p.routeIndexB], src,
                                                                    [a1, amountIn - a1], dest, 0);
      && settled.Ok?
      && p.amountOut - 1 <= settled.value <= p.amountOut
  {
    var p := Plan(v, src, dest, amountIn, candidates, steps, i, j, k);
    var a1 := FirstLegAmount(amountIn, p.volumeA);
    var a2 := amountIn - a1;
    var bps := v.partners[0].feeBps;
    var g1 := RouteGross(v.routes, v.market, candidates[i], src, dest, a1);
    var g2 := RouteGross(v.routes, v.market, candidates[j], src, dest, a2);
    assert Quote(v, candidates[i], src, dest, a1) != FailedQuote;
    assert Quote(v, candidates[j], src, dest, a2) != FailedQuote;
    var grosses := [g1.value, g2.value];
    LegGrossesOfQuotes(v.routes, v.market, [candidates[i], candidates[j]], src, dest, [a1, a2], grosses);
    TwoLegs(grosses, bps);
    SplitNetAgainstLegNets(grosses, bps);
  }
}

=== FILE: common.dfy ===
/** Shared vocabulary of the Sincore swap aggregator: addresses, results,
    the revert reasons the contracts use and the events they emit. */
module Common {

  /** An account or contract address; 0 is the zero address. */
  type Address = nat
  /** An asset is named by its token address (ether by a reserved address). */
  type Asset = Address

  const ZeroAddress: Address := 0
  /** The pseudo-token address that stands for ether (`etherERC20`). */
  const EtherAsset: Asset := 0xEeeeeEeeeEeEeeEeEeEeeEEEeeeeEeeeeeeeEEeE

  datatype Option<+T> = None | Some(value: T)

  /** The revert reasons of the contracts, one per kind of failure. */
  datatype Error =
    | RoutesEmpty              // "routes can not be empty"
    | LengthMismatch           // "routes and srcAmounts lengths mismatch"
    | AmountsMismatch          // per-leg amounts do not add up to the declared total
    | DestinationAmountTooLow  // "destination amount is too low"
    | InvalidRouteIndex        // the route index is not registered
    | RouteFailure             // the venue could not quote or execute the leg
    | InsufficientBalance      // a transfer from an account that does not hold the amount
    | NotOwner                 // "Ownable: caller is not the owner"

  datatype Result<+T> = Ok(value: T) | Err(error: Error)

  /** Events, including the `Trade` event each venue emits for its own leg,
      there named by the index of its registered route. */
  datatype Event =
    | TradeEvent(src: Asset, amountIn: nat, dest: Asset, amountOut: nat, trader: Address)
    | RouteTradeEvent(routeIndex: nat, src: Asset, amountIn: nat, dest: Asset, amountOut: nat)
    | CollectFeeEvent(partnerIndex: nat, token: Asset, wallet: Address, amount: nat)
    | UpdateEligibleAmountEvent(amount: nat)
    | UpdateSincoreTokenEvent(token: Address)

  /** Sum of a sequence of amounts, accumulated from the end. */
  function Sum(s: seq<nat>): nat
  {
    if s == [] then 0 else Sum(s[..|s| - 1]) + s[|s| - 1]
  }

  /** Every prefix sums to at most the whole. */
  lemma {:induction false} SumPrefix(s: seq<nat>, i: nat)
    requires i <= |s|
    ensures Sum(s[..i]) <= Sum(s)
    decreases |s| - i
  {
    if i < |s| {
      SumPrefix(s, i + 1);
      assert s[..i + 1][..i] == s[..i];
    } else {
      assert s[..i] == s;
    }
  }

  /** Extending a prefix by one element adds that element to the sum. */
  lemma SumPrefixStep(s: seq<nat>, i: nat)
    requires i < |s|
    ensures Sum(s[..i + 1]) == Sum(s[..i]) + s[i]
  {
    assert s[..i + 1][..i] == s[..i];
  }

  /** Appending an element adds it to the sum. */
  lemma SumSnoc(s: seq<nat>, x: nat)
    ensures Sum(s + [x]) == Sum(s) + x
  {
    assert (s + [x])[..|s|] == s;
  }
}

=== FILE: fee_engine.dfy ===
/** Fee rules of SincoreSwap: the partner table with its fallback to partner
    0, the loyalty-token exemption and the basis-point fee, taken once on a
    gross output. */
module FeeEngine {
  import opened Common

  /** Basis points per whole: a fee of `bps` is `bps / 10000` of the gross. */
  const BpsDenominator: nat := 10000
  /** Partner 0's fee at deployment, 0.1%. */
  const DefaultFeeBps: nat := 10
  /** `eligibleAmount` at deployment: 10 loyalty tokens of 18 decimals. */
  const DefaultEligibleAmount: nat := 10 * 1_000_000_000_000_000_000

  /** A fee rate in basis points, from 0% to 100%. */
  type FeeRate = bps: nat | bps <= BpsDenominator

  /** A partner record: payout wallet, fee rate in basis points and label. */
  datatype Partner = Partner(wallet: Address, feeBps: FeeRate, name: string)

  /** The fee on `gross` at `bps` basis points, rounded down. */
  function Fee(gross: nat, bps: nat): (fee: nat)
    ensures fee * BpsDenominator <= gross * bps < (fee + 1) * BpsDenominator
    ensures bps <= BpsDenominator ==> fee <= gross
    ensures bps == 0 ==> fee == 0
  {
    var fee := gross * bps / BpsDenominator;
    assert bps <= BpsDenominator ==> gross * bps <= gross * BpsDenominator;
    fee
  }

  /** The fee actually charged: nothing for an exempt trader. */
  function ChargedFee(gross: nat, bps: nat, exempt: bool): (fee: nat)
    ensures exempt ==> fee == 0
    ensures !exempt ==> fee * BpsDenominator <= gross * bps < (fee + 1) * BpsDenominator
  {
    if exempt then 0 else Fee(gross, bps)
  }

  /** The amount left to the trader: the gross output less the fee. */
  function NetAmount(gross: nat, bps: FeeRate, exempt: bool): (net: nat)
    ensures net <= gross
    ensures net + ChargedFee(gross, bps, exempt) == gross
    ensures exempt || bps == 0 ==> net == gross
  {
    gross - ChargedFee(gross, bps, exempt)
  }

  /** The partner index a trade is billed to: the supplied index when it is
      in the table, partner 0 otherwise. */
  function ResolvePartnerIndex(partners: seq<Partner>, partnerIndex: nat): (i: nat)
    requires |partners| > 0
    ensures i < |partners|
    ensures partnerIndex < |partners| ==> i == partnerIndex
    ensures partnerIndex >= |partners| ==> i == 0
  {
    if partnerIndex < |partners| then partnerIndex else 0
  }

  /** `isEligibleForFreeTrade`: a loyalty token is configured and the trader
      holds at least `eligibleAmount` of it. */
  function EligibleForFreeTrade(sincoreToken: Address, loyaltyBalance: nat, eligibleAmount: nat): (eligible: bool)
    ensures sincoreToken == ZeroAddress ==> !eligible
    ensures sincoreToken != ZeroAddress ==> (eligible <==> eligibleAmount <= loyaltyBalance)
  {
    sincoreToken != ZeroAddress && loyaltyBalance >= eligibleAmount
  }

  /** The exemption threshold is inclusive: holding exactly `eligibleAmount`
      exempts, one unit less does not, and without a configured loyalty
      token nobody is exempt. */
  lemma EligibilityThreshold(sincoreToken: Address, eligibleAmount: nat)
    ensures sincoreToken != ZeroAddress ==> EligibleForFreeTrade(sincoreToken, eligibleAmount, eligibleAmount)
    ensures eligibleAmount > 0 ==> !EligibleForFreeTrade(sincoreToken, eligibleAmount - 1, eligibleAmount)
    ensures forall b: nat :: !EligibleForFreeTrade(ZeroAddress, b, eligibleAmount)
  {
  }

  /** Rounding down once on a sum loses at most one unit against rounding
      each part: the fee on `a + b` is the two fees added, or one more. */
  lemma FeeOfSum(a: nat, b: nat, bps: nat)
    ensures Fee(a, bps) + Fee(b, bps) <= Fee(a + b, bps) <= Fee(a, bps) + Fee(b, bps) + 1
  {
    var fa, fb, fab := Fee(a, bps), Fee(b, bps), Fee(a + b, bps);
    assert (a + b) * bps == a * bps + b * bps;
    assert (fa + fb) * BpsDenominator <= (a + b) * bps;
    assert (a + b) * bps < (fa + fb + 2) * BpsDenominator;
    assert fab * BpsDenominator <= (a + b) * bps < (fab + 1) * BpsDenominator;
  }

  /** Sum of per-leg fees, each rounded down on its own. */
  function LegFees(grosses: seq<nat>, bps: nat): nat
  {
    if grosses == [] then 0 else LegFees(grosses[..|grosses| - 1], bps) + Fee(grosses[|grosses| - 1], bps)
  }

  /** A fee taken once on the total of n legs is at least the sum of the
      per-leg fees and exceeds it by fewer than n units. */
  lemma {:induction false} FeeOnTotalBounds(grosses: seq<nat>, bps: nat)
    ensures LegFees(grosses, bps) <= Fee(Sum(grosses), bps)
    ensures |grosses| > 0 ==> Fee(Sum(grosses), bps) <= LegFees(grosses, bps) + |grosses| - 1
  {
    if grosses != [] {
      var init, last := grosses[..|grosses| - 1], grosses[|grosses| - 1];
      FeeOnTotalBounds(init, bps);
      FeeOfSum(Sum(init), last, bps);
      if init == [] {
        assert Sum(init) == 0 && LegFees(init, bps) == 0;
        assert Fee(0, bps) == 0;
      }
    }
  }

  /** Sum of the nets each leg would pay as a trade of its own (no exemption). */
  function LegNets(grosses: seq<nat>, bps: FeeRate): nat
  {
    if grosses == [] then 0 else LegNets(grosses[..|grosses| - 1], bps) + NetAmount(grosses[|grosses| - 1], bps, false)
  }

  lemma {:induction false} LegNetsIsSumLessFees(grosses: seq<nat>, bps: FeeRate)
    ensures LegNets(grosses, bps) + LegFees(grosses, bps) == Sum(grosses)
  {
    if grosses != [] {
      LegNetsIsSumLessFees(grosses[..|grosses| - 1], bps);
    }
  }

  /** Split-trade pricing against pricing each leg alone: the net of one fee
      on the summed gross is at most the sum of the per-leg nets, and below
      it by at most n - 1 units for n legs (one unit for two legs). */
  lemma SplitNetAgainstLegNets(grosses: seq<nat>, bps: FeeRate)
    requires |grosses| > 0
    ensures NetAmount(Sum(grosses), bps, false) <= LegNets(grosses, bps)
    ensures LegNets(grosses, bps) <= NetAmount(Sum(grosses), bps, false) + |grosses| - 1
  {
    FeeOnTotalBounds(grosses, bps);
    LegNetsIsSumLessFees(grosses, bps);
  }

  /** The sum and the per-leg nets of two legs. */
  lemma TwoLegs(grosses: seq<nat>, bps: FeeRate)
    requires |grosses| == 2
    ensures Sum(grosses) == grosses[0] + grosses[1]
    ensures LegNets(grosses, bps) == NetAmount(grosses[0], bps, false) + NetAmount(grosses[1], bps, false)
  {
    var first := grosses[..1];
    assert first == [grosses[0]] && first[..0] == [];
    assert Sum(first) == grosses[0];
    assert LegNets(first, bps) == NetAmount(grosses[0], bps, false);
  }
}

=== FILE: fee_examples.dfy ===
/** Worked examples: the amounts recorded for the mainnet-fork scenarios of
    the swap contract, replayed on the model with a venue table that quotes
    exactly the recorded gross outputs. */
module FeeExamples {
  import opened Common
  import opened FeeEngine
  import opened SwapContract
  import opened BestRateQuery

  const Dai: Asset := 0x6B175474E89094C44Da98b954EedeAC495271d0F
  const Reserve: Address := 0x5555
  const UniswapAdapter: Address := 0x1001
  const SushiswapAdapter: Address := 0x1002
  const CurveAdapter: Address := 0x1003
  /** One ether (or one token of 18 decimals) in its smallest unit. */
  const Unit: nat := 1_000_000_000_000_000_000

  /** Uniswap at index 0, Sushiswap at index 1, Curve at index 2. */
  const Routes: seq<TradingRoute> :=
    [TradingRoute("Uniswap", UniswapAdapter), TradingRoute("Sushiswap", SushiswapAdapter), TradingRoute("Curve", CurveAdapter)]
  /** Partner 0 at the default rate of 0.1%. */
  const Partners: seq<Partner> := [Partner(Reserve, DefaultFeeBps, "Sincore")]

  /** The venues' gross outputs for the recorded trades; anything else,
      and every Curve quote, cannot be quoted. */
  function RecordedMarket(route: Address, src: Asset, dest: Asset, amountIn: nat): Option<nat>
  {
    if route == UniswapAdapter && src == Dai && dest == EtherAsset && amountIn == 3500 * Unit then Some(2566712128824875548)
    else if route == UniswapAdapter && src == EtherAsset && dest == Dai && amountIn == 2 * Unit then Some(2711501914974704319964)
    else if route == SushiswapAdapter && src == EtherAsset && dest == Dai && amountIn == 3 * Unit then Some(4045725292714821726924)
    else None
  }

  /** 3500 DAI to ether through Uniswap at 0.1%: the trader receives
      2564145416696050673 and the reserve 2566712128824875, which is the
      gross times 10 / 10000 rounded down. */
  lemma SingleRouteFeeExample()
    ensures GetDestinationReturnAmount(Routes, Partners, RecordedMarket, 0, Dai, EtherAsset, 3500 * Unit, 0) == Ok(2564145416696050673)
    ensures TradeSettlement(Routes, Partners, RecordedMarket, false, 3500 * Unit, 0, Dai, 3500 * Unit, EtherAsset, 25 * Unit / 10, 0)
            == Ok(Settlement(2566712128824875548, 2566712128824875, 2564145416696050673, 0, Reserve))
    ensures SettlementEvents(Dai, 3500 * Unit, EtherAsset, 7, Settlement(2566712128824875548, 2566712128824875, 2564145416696050673, 0, Reserve))
            == [CollectFeeEvent(0, EtherAsset, Reserve, 2566712128824875), TradeEvent(Dai, 3500 * Unit, EtherAsset, 2564145416696050673, 7)]
  {
  }

  /** The same trade with a minimum above what it yields is refused. */
  lemma SingleRouteSlippageExample()
    ensures TradeSettlement(Routes, Partners, RecordedMarket, false, 3500 * Unit, 0, Dai, 3500 * Unit, EtherAsset, 2564145416696050674, 0)
            == Err(DestinationAmountTooLow)
    ensures TradeSettlement(Routes, Partners, RecordedMarket, false, 3500 * Unit, 0, Dai, 3500 * Unit, EtherAsset, 2564145416696050673, 0).Ok?
  {
  }

  /** A partner index outside the table (1001, 2501) is billed like
      partner 0. */
  lemma PartnerFallbackExample()
    ensures GetDestinationReturnAmount(Routes, Partners, RecordedMarket, 0, Dai, EtherAsset, 3500 * Unit, 1001) == Ok(2564145416696050673)
    ensures TradeSettlement(Routes, Partners, RecordedMarket, false, 3500 * Unit, 0, Dai, 3500 * Unit, EtherAsset, 1, 2501)
            == Ok(Settlement(2566712128824875548, 2566712128824875, 2564145416696050673, 0, Reserve))
  {
  }

  /** With partner 0 at 0%, the net is the whole gross and no `CollectFee`
      event is emitted. */
  lemma ZeroFeeExample()
    ensures var s := Settle([Partner(Reserve, 0, "Sincore")], 2566712128824875548, false, 0);
      && s.fee == 0 && s.net == 2566712128824875548
      && SettlementEvents(Dai, 3500 * Unit, EtherAsset, 7, s) == [TradeEvent(Dai, 3500 * Unit, EtherAsset, 2566712128824875548, 7)]
  {
  }

  /** The (2 + 3) ether to DAI split: each leg on its own would pay
      2708790413059729615645 and 4041679567422106905198, while the split
      pays 6750469980481836520842, one unit less than their sum, because
      the fee is rounded once on the summed gross. */
  lemma SplitRateExample()
    ensures GetDestinationReturnAmount(Routes, Partners, RecordedMarket, 0, EtherAsset, Dai, 2 * Unit, 0) == Ok(2708790413059729615645)
    ensures GetDestinationReturnAmount(Routes, Partners, RecordedMarket, 1, EtherAsset, Dai, 3 * Unit, 0) == Ok(4041679567422106905198)
    ensures GetDestinationReturnAmountForSplitTrades(Routes, Partners, RecordedMarket, [0, 1], EtherAsset, [2 * Unit, 3 * Unit], Dai, 0)
            == Ok(6750469980481836520842)
  {
    assert RouteGross(Routes, RecordedMarket, 0, EtherAsset, Dai, 2 * Unit) == Ok(2711501914974704319964);
    assert RouteGross(Routes, RecordedMarket, 1, EtherAsset, Dai, 3 * Unit) == Ok(4045725292714821726924);
    assert Fee(2711501914974704319964, DefaultFeeBps) == 2711501914974704319;
    assert Fee(4045725292714821726924, DefaultFeeBps) == 4045725292714821726;
    assert Fee(6757227207689526046888, DefaultFeeBps) == 6757227207689526046;
    LegGrossesOfQuotes(Routes, RecordedMarket, [0, 1], EtherAsset, Dai, [2 * Unit, 3 * Unit], [2711501914974704319964, 4045725292714821726924]);
    assert Sum([2711501914974704319964, 4045725292714821726924]) == 6757227207689526046888 by {
      SumSnoc([2711501914974704319964], 4045725292714821726924);
      SumSnoc([], 2711501914974704319964);
    }
  }

  /** The (1200, 3200) DAI to ether split at 0.1%: legs whose gross outputs
      add up to 3239383051695989054 pay the trader 3236143668644293065 and
      the reserve 3239383051695989. */
  lemma SplitTradeFeeExample()
    ensures Settle(Partners, 3239383051695989054, false, 0) == Settlement(3239383051695989054, 3239383051695989, 3236143668644293065, 0, Reserve)
  {
  }

  /** The loyalty threshold of 10 tokens: holding 10 or 2500 exempts,
      holding 5.1 does not. */
  lemma LoyaltyExamples(token: Address)
    requires token != ZeroAddress
    ensures EligibleForFreeTrade(token, 10 * Unit, DefaultEligibleAmount)
    ensures EligibleForFreeTrade(token, 2500 * Unit, DefaultEligibleAmount)
    ensures !EligibleForFreeTrade(token, 51 * Unit / 10, DefaultEligibleAmount)
  {
  }

  /** `oneRoute` over Curve and Uniswap for 2 ether: Curve is registered but
      its quote fails, so it is recorded as the sentinel and Uniswap wins. */
  lemma OneRouteExample()
    ensures OneRoute(Venues(Routes, Partners, RecordedMarket), EtherAsset, Dai, 2 * Unit, [2, 0])
            == Ok(OneRouteResult(0, 2708790413059729615645))
  {
    var v := Venues(Routes, Partners, RecordedMarket);
    assert Quote(v, 2, EtherAsset, Dai, 2 * Unit) == FailedQuote;
    assert Quote(v, 0, EtherAsset, Dai, 2 * Unit) == 2708790413059729615645;
    assert AmountOuts(v, EtherAsset, Dai, 2 * Unit, [2, 0]) == [FailedQuote, 2708790413059729615645];
  }
}

=== FILE: ledger.dfy ===
/** Balances of ether and tokens, as one map from (asset, holder) to amount.
    The transfer primitive fails on an insufficient balance, as ether
    transfers and EIP-20 `transfer`/`transferFrom` do. */
module Ledger {
  import opened Common

  type Balances = map<(Asset, Address), nat>

  /** The balance of `who` in `asset`; an absent entry is a zero balance. */
  function Balance(l: Balances, asset: Asset, who: Address): nat
  {
    if (asset, who) in l then l[(asset, who)] else 0
  }

  /** Adds `amount` to one holder's balance and leaves every other balance. */
  function Credit(l: Balances, asset: Asset, who: Address, amount: nat): (r: Balances)
    ensures Balance(r, asset, who) == Balance(l, asset, who) + amount
    ensures forall a: Asset, w: Address {:trigger Balance(r, a, w)} :: (a, w) != (asset, who) ==> Balance(r, a, w) == Balance(l, a, w)
  {
    l[(asset, who) := Balance(l, asset, who) + amount]
  }

  /** Removes `amount` from one holder's balance, which must cover it. */
  function Debit(l: Balances, asset: Asset, who: Address, amount: nat): (r: Balances)
    requires amount <= Balance(l, asset, who)
    ensures Balance(r, asset, who) == Balance(l, asset, who) - amount
    ensures forall a: Asset, w: Address {:trigger Balance(r, a, w)} :: (a, w) != (asset, who) ==> Balance(r, a, w) == Balance(l, a, w)
  {
    l[(asset, who) := Balance(l, asset, who) - amount]
  }

  /** `r` is `l` with `gain` added at the balance `to` and `loss` taken
      from the balance `from` (when the two are the same balance, both
      apply); every other balance is as in `l`. */
  ghost predicate Moved(r: Balances, l: Balances, to: (Asset, Address), gain: nat, from: (Asset, Address), loss: nat)
  {
    forall a: Asset, w: Address {:trigger Balance(r, a, w)} ::
      Balance(r, a, w) == Balance(l, a, w) + (if (a, w) == to then gain else 0) - (if (a, w) == from then loss else 0)
  }

  /** Moves `amount` of `asset` from one holder to another: the sender loses
      it, the receiver gains it, nobody else is affected (a transfer to
      oneself changes nothing), and the two balances together are conserved. */
  function Transfer(l: Balances, asset: Asset, from: Address, to: Address, amount: nat): (r: Balances)
    requires amount <= Balance(l, asset, from)
    ensures Moved(r, l, (asset, to), amount, (asset, from), amount)
    ensures Balance(r, asset, from) + Balance(r, asset, to) == Balance(l, asset, from) + Balance(l, asset, to)
  {
    Credit(Debit(l, asset, from, amount), asset, to, amount)
  }

  /** One holder gives `giveAmount` of `give` and receives `getAmount` of
      `get` (a swap seen from the holder's side); nobody else is affected. */
  function Exchange(l: Balances, who: Address, give: Asset, giveAmount: nat, get: Asset, getAmount: nat): (r: Balances)
    requires giveAmount <= Balance(l, give, who)
    ensures Moved(r, l, (get, who), getAmount, (give, who), giveAmount)
  {
    Credit(Debit(l, give, who, giveAmount), get, who, getAmount)
  }

  /** `x` moved from `k1` to `k2`, then `k2` exchanged that `x` for `y` at
      `k3`: in all, `x` left `k1` and `y` arrived at `k3`. */
  lemma MovedChain(l0: Balances, l1: Balances, l2: Balances, k1: (Asset, Address), k2: (Asset, Address), k3: (Asset, Address), x: nat, y: nat)
    requires Moved(l1, l0, k2, x, k1, x)
    requires Moved(l2, l1, k3, y, k2, x)
    ensures Moved(l2, l0, k3, y, k1, x)
  {
    forall a: Asset, w: Address
      ensures Balance(l2, a, w) == Balance(l0, a, w) + (if (a, w) == k3 then y else 0) - (if (a, w) == k1 then x else 0)
    {
      assert Balance(l1, a, w) == Balance(l0, a, w) + (if (a, w) == k2 then x else 0) - (if (a, w) == k1 then x else 0);
    }
  }

  /** Two successive moves between the same two balances add up. */
  lemma MovedAdd(l0: Balances, l1: Balances, l2: Balances, to: (Asset, Address), from: (Asset, Address), gain1: nat, loss1: nat, gain2: nat, loss2: nat)
    requires Moved(l1, l0, to, gain1, from, loss1)
    requires Moved(l2, l1, to, gain2, from, loss2)
    ensures Moved(l2, l0, to, gain1 + gain2, from, loss1 + loss2)
  {
    forall a: Asset, w: Address
      ensures Balance(l2, a, w) == Balance(l0, a, w) + (if (a, w) == to then gain1 + gain2 else 0) - (if (a, w) == from then loss1 + loss2 else 0)
    {
      assert Balance(l1, a, w) == Balance(l0, a, w) + (if (a, w) == to then gain1 else 0) - (if (a, w) == from then loss1 else 0);
    }
  }
}

=== FILE: swap_contract.dfy ===
/** The SincoreSwap contract: a registry of trading routes and partners, the
    rate views `getDestinationReturnAmount` and
    `getDestinationReturnAmountForSplitTrades`, the settling operations
    `trade` and `splitTrades`, and the owner-only settings and sweeps. */
module SwapContract {
  import opened Common
  import opened Ledger
  import opened FeeEngine

  /** A registered trading route: its label and the adapter contract. */
  datatype TradingRoute = TradingRoute(name: string, route: Address)

  /** Venue pricing: what the adapter at the given address returns for
      swapping `amountIn` of `src` into `dest`, or None when it reverts
      (unsupported pair, no liquidity). Executing a leg pays out exactly
      what the adapter quotes in the same block. */
  type Market = (Address, Asset, Asset, nat) -> Option<nat>

  /** The outcome of a settled trade. */
  datatype Settlement = Settlement(gross: nat, fee: nat, net: nat, partnerIndex: nat, wallet: Address)

  /** The gross output of one leg through a registered route. */
  function RouteGross(routes: seq<TradingRoute>, market: Market, routeIndex: nat, src: Asset, dest: Asset, amountIn: nat): (r: Result<nat>)
    ensures routeIndex >= |routes| ==> r == Err(InvalidRouteIndex)
    ensures r.Ok? <==> routeIndex < |routes| && market(routes[routeIndex].route, src, dest, amountIn).Some?
    ensures r.Err? ==> r.error in {InvalidRouteIndex, RouteFailure}
  {
    if routeIndex >= |routes| then Err(InvalidRouteIndex)
    else match market(routes[routeIndex].route, src, dest, amountIn)
      case None => Err(RouteFailure)
      case Some(gross) => Ok(gross)
  }

  /** The gross outputs of the legs of a split trade, leg by leg; the first
      failing leg decides the error. */
  function LegGrosses(routes: seq<TradingRoute>, market: Market, routeIndexes: seq<nat>, src: Asset, dest: Asset, amountIns: seq<nat>): (r: Result<seq<nat>>)
    requires |routeIndexes| == |amountIns|
    ensures r.Ok? <==> forall i :: 0 <= i < |routeIndexes| ==> RouteGross(routes, market, routeIndexes[i], src, dest, amountIns[i]).Ok?
    ensures r.Ok? ==> |r.value| == |routeIndexes|
    ensures r.Ok? ==> forall i :: 0 <= i < |routeIndexes| ==> RouteGross(routes, market, routeIndexes[i], src, dest, amountIns[i]) == Ok(r.value[i])
    decreases |routeIndexes|
  {
    if routeIndexes == [] then Ok([])
    else
      var n := |routeIndexes| - 1;
      var init := LegGrosses(routes, market, routeIndexes[..n], src, dest, amountIns[..n]);
      if init.Err? then
        assert RouteGross(routes, market, routeIndexes[..n][0], src, dest, amountIns[..n][0]).Err? ||
               exists i :: 0 <= i < n && RouteGross(routes, market, routeIndexes[..n][i], src, dest, amountIns[..n][i]).Err?;
        init
      else
        match RouteGross(routes, market, routeIndexes[n], src, dest, amountIns[n])
        case Err(e) => Err(e)
        case Ok(g) => Ok(init.value + [g])
  }

  /** When the legs before leg `i` all quote and leg `i` does not, the legs
      fail with leg `i`'s error, whatever the legs after it would do. */
  lemma {:induction false} LegGrossesFirstFailure(routes: seq<TradingRoute>, market: Market, routeIndexes: seq<nat>, src: Asset, dest: Asset, amountIns: seq<nat>, i: nat)
    requires |routeIndexes| == |amountIns| && i < |routeIndexes|
    requires forall t :: 0 <= t < i ==> RouteGross(routes, market, routeIndexes[t], src, dest, amountIns[t]).Ok?
    requires RouteGross(routes, market, routeIndexes[i], src, dest, amountIns[i]).Err?
    ensures LegGrosses(routes, market, routeIndexes, src, dest, amountIns) == Err(RouteGross(routes, market, routeIndexes[i], src, dest, amountIns[i]).error)
    decreases |routeIndexes|
  {
    var n := |routeIndexes| - 1;
    var ri, ai := routeIndexes[..n], amountIns[..n];
    if i < n {
      LegGrossesFirstFailure(routes, market, ri, src, dest, ai, i);
    } else {
      assert forall t :: 0 <= t < n ==> RouteGross(routes, market, ri[t], src, dest, ai[t]).Ok?;
    }
  }

  /** When every leg quotes, the legs succeed with exactly those quotes. */
  lemma LegGrossesOfQuotes(routes: seq<TradingRoute>, market: Market, routeIndexes: seq<nat>, src: Asset, dest: Asset, amountIns: seq<nat>, grosses: seq<nat>)
    requires |routeIndexes| == |amountIns| == |grosses|
    requires forall t :: 0 <= t < |routeIndexes| ==> RouteGross(routes, market, routeIndexes[t], src, dest, amountIns[t]) == Ok(grosses[t])
    ensures LegGrosses(routes, market, routeIndexes, src, dest, amountIns) == Ok(grosses)
  {
    var r := LegGrosses(routes, market, routeIndexes, src, dest, amountIns);
    assert r.Ok?;
    assert forall t :: 0 <= t < |grosses| ==> r.value[t] == grosses[t];
    assert r.value == grosses;
  }

  /** The partner billed, the fee and the net for a gross output. */
  function Settle(partners: seq<Partner>, gross: nat, exempt: bool, partnerIndex: nat): (s: Settlement)
    requires |partners| > 0
    ensures s.gross == gross
    ensures s.partnerIndex < |partners| && s.wallet == partners[s.partnerIndex].wallet
    ensures partnerIndex >= |partners| ==> s.partnerIndex == 0
    ensures s.fee == ChargedFee(gross, partners[s.partnerIndex].feeBps, exempt)
    ensures s.net == NetAmount(gross, partners[s.partnerIndex].feeBps, exempt)
  {
    var p := ResolvePartnerIndex(partners, partnerIndex);
    Settlement(gross, ChargedFee(gross, partners[p].feeBps, exempt), NetAmount(gross, partners[p].feeBps, exempt), p, partners[p].wallet)
  }

  /** `getDestinationReturnAmount`: the net a trader without exemption would
      receive from one route, billed to the resolved partner. */
  function GetDestinationReturnAmount(routes: seq<TradingRoute>, partners: seq<Partner>, market: Market, routeIndex: nat, src: Asset, dest: Asset, amountIn: nat, partnerIndex: nat): (r: Result<nat>)
    requires |partners| > 0
    ensures r.Ok? <==> RouteGross(routes, market, routeIndex, src, dest, amountIn).Ok?
    ensures r.Ok? ==> r.value <= RouteGross(routes, market, routeIndex, src, dest, amountIn).value
    ensures r.Ok? ==>
      r.value == RouteGross(routes, market, routeIndex, src, dest, amountIn).value
                 - Fee(RouteGross(routes, market, routeIndex, src, dest, amountIn).value, partners[ResolvePartnerIndex(partners, partnerIndex)].feeBps)
  {
    match RouteGross(routes, market, routeIndex, src, dest, amountIn)
    case Err(e) => Err(e)
    case Ok(gross) => Ok(Settle(partners, gross, false, partnerIndex).net)
  }

  /** `getDestinationReturnAmountForSplitTrades`: the per-leg gross outputs
      are summed and the fee is taken once, on the total. */
  function GetDestinationReturnAmountForSplitTrades(routes: seq<TradingRoute>, partners: seq<Partner>, market: Market, routeIndexes: seq<nat>, src: Asset, amountIns: seq<nat>, dest: Asset, partnerIndex: nat): (r: Result<nat>)
    requires |partners| > 0
    ensures |routeIndexes| == 0 ==> r == Err(RoutesEmpty)
    ensures |routeIndexes| > 0 && |routeIndexes| != |amountIns| ==> r == Err(LengthMismatch)
    ensures r.Ok? ==> 0 < |routeIndexes| == |amountIns|
    ensures r.Ok? ==> LegGrosses(routes, market, routeIndexes, src, dest, amountIns).Ok?
    ensures r.Ok? ==> r.value == NetAmount(Sum(LegGrosses(routes, market, routeIndexes, src, dest, amountIns).value), partners[ResolvePartnerIndex(partners, partnerIndex)].feeBps, false)
  {
    if |routeIndexes| == 0 then Err(RoutesEmpty)
    else if |routeIndexes| != |amountIns| then Err(LengthMismatch)
    else match LegGrosses(routes, market, routeIndexes, src, dest, amountIns)
      case Err(e) => Err(e)
      case Ok(grosses) => Ok(Settle(partners, Sum(grosses), false, partnerIndex).net)
  }

  /** What `trade` settles, decided on the state before the call. */
  function TradeSettlement(routes: seq<TradingRoute>, partners: seq<Partner>, market: Market, exempt: bool, traderBalance: nat,
                           routeIndex: nat, src: Asset, amountIn: nat, dest: Asset, minDestAmount: nat, partnerIndex: nat): Result<Settlement>
    requires |partners| > 0
  {
    if traderBalance < amountIn then Err(InsufficientBalance)
    else match RouteGross(routes, market, routeIndex, src, dest, amountIn)
      case Err(e) => Err(e)
      case Ok(gross) =>
        var s := Settle(partners, gross, exempt, partnerIndex);
        if s.net < minDestAmount then Err(DestinationAmountTooLow) else Ok(s)
  }

  /** What `splitTrades` settles, decided on the state before the call. */
  function SplitTradeSettlement(routes: seq<TradingRoute>, partners: seq<Partner>, market: Market, exempt: bool, traderBalance: nat,
                                routeIndexes: seq<nat>, src: Asset, totalAmountIn: nat, amountIns: seq<nat>, dest: Asset,
                                minDestAmount: nat, partnerIndex: nat): Result<Settlement>
    requires |partners| > 0
  {
    if |routeIndexes| == 0 then Err(RoutesEmpty)
    else if |routeIndexes| != |amountIns| then Err(LengthMismatch)
    else if Sum(amountIns) != totalAmountIn then Err(AmountsMismatch)
    else if traderBalance < totalAmountIn then Err(InsufficientBalance)
    else match LegGrosses(routes, market, routeIndexes, src, dest, amountIns)
      case Err(e) => Err(e)
      case Ok(grosses) =>
        var s := Settle(partners, Sum(grosses), exempt, partnerIndex);
        if s.net < minDestAmount then Err(DestinationAmountTooLow) else Ok(s)
  }

  /** The `Trade` event each venue emits for its own leg, in leg order. */
  function VenueEvents(routeIndexes: seq<nat>, src: Asset, dest: Asset, amountIns: seq<nat>, grosses: seq<nat>): seq<Event>
    requires |routeIndexes| == |amountIns| == |grosses|
  {
    if routeIndexes == [] then []
    else
      var n := |routeIndexes| - 1;
      VenueEvents(routeIndexes[..n], src, dest, amountIns[..n], grosses[..n])
        + [RouteTradeEvent(routeIndexes[n], src, amountIns[n], dest, grosses[n])]
  }

  /** The events of a settled trade after the venues' own: `CollectFee` only
      when a fee is charged, then `Trade` with the net. */
  function SettlementEvents(src: Asset, amountIn: nat, dest: Asset, trader: Address, s: Settlement): seq<Event>
  {
    (if s.fee > 0 then [CollectFeeEvent(s.partnerIndex, dest, s.wallet, s.fee)] else [])
      + [TradeEvent(src, amountIn, dest, s.net, trader)]
  }

  /** How a settled trade changes one balance: the trader pays `amountIn`
      and receives the net, the partner wallet receives the fee. */
  function SettlementDelta(asset: Asset, who: Address, src: Asset, amountIn: nat, dest: Asset, trader: Address, s: Settlement): int
  {
    (if (asset, who) == (dest, trader) then s.net else 0)
      + (if (asset, who) == (dest, s.wallet) then s.fee else 0)
      - (if (asset, who) == (src, trader) then amountIn else 0)
  }

  /** The payout from custody: the fee, when there is one, to the partner
      wallet, then the net to the trader. */
  function PayOut(l: Balances, custodian: Address, trader: Address, dest: Asset, s: Settlement): (r: Balances)
    requires custodian != trader && custodian != s.wallet
    requires s.fee + s.net <= Balance(l, dest, custodian)
    ensures forall a: Asset, w: Address {:trigger Balance(r, a, w)} ::
      Balance(r, a, w) == Balance(l, a, w) + (if (a, w) == (dest, trader) then s.net else 0)
        + (if (a, w) == (dest, s.wallet) then s.fee else 0) - (if (a, w) == (dest, custodian) then s.fee + s.net else 0)
  {
    var feePaid := if s.fee > 0 then Transfer(l, dest, custodian, s.wallet, s.fee) else l;
    Transfer(feePaid, dest, custodian, trader, s.net)
  }

  /** A trade whose custody took `amountIn` from the trader and holds the
      gross output, and whose payout hands out fee and net that make up
      that gross, leaves the custodian where it started: the only changes
      are the trader's payment, the trader's net and the partner's fee. */
  lemma SettlementBalances(l: Balances, swapped: Balances, custodian: Address, trader: Address, src: Asset, amountIn: nat, dest: Asset, s: Settlement)
    requires Moved(swapped, l, (dest, custodian), s.gross, (src, trader), amountIn)
    requires custodian != trader && custodian != s.wallet && s.fee + s.net == s.gross
    ensures s.fee + s.net <= Balance(swapped, dest, custodian)
    ensures forall a: Asset, w: Address {:trigger Balance(PayOut(swapped, custodian, trader, dest, s), a, w)} ::
      Balance(PayOut(swapped, custodian, trader, dest, s), a, w) == Balance(l, a, w) + SettlementDelta(a, w, src, amountIn, dest, trader, s)
  {
    assert Balance(swapped, dest, custodian) == Balance(l, dest, custodian) + s.gross - (if (dest, custodian) == (src, trader) then amountIn else 0);
    var paid := PayOut(swapped, custodian, trader, dest, s);
    forall a: Asset, w: Address
      ensures Balance(paid, a, w) == Balance(l, a, w) + SettlementDelta(a, w, src, amountIn, dest, trader, s)
    {
      assert Balance(swapped, a, w) == Balance(l, a, w) + (if (a, w) == (dest, custodian) then s.gross else 0) - (if (a, w) == (src, trader) then amountIn else 0);
    }
  }

  /** A trade settles at the net its rate view quotes: without exemption
      `trade` succeeds exactly when `getDestinationReturnAmount` quotes at
      least `minDestAmount`, pays that quote, and fails with the quote's
      error when the route cannot quote. */
  lemma TradeMatchesQuote(routes: seq<TradingRoute>, partners: seq<Partner>, market: Market, traderBalance: nat,
                          routeIndex: nat, src: Asset, amountIn: nat, dest: Asset, minDestAmount: nat, partnerIndex: nat)
    requires |partners| > 0 && amountIn <= traderBalance
    ensures var q := GetDestinationReturnAmount(routes, partners, market, routeIndex, src, dest, amountIn, partnerIndex);
            var t := TradeSettlement(routes, partners, market, false, traderBalance, routeIndex, src, amountIn, dest, minDestAmount, partnerIndex);
      && (q.Err? ==> t == Err(q.error))
      && (q.Ok? ==> (t.Ok? <==> minDestAmount <= q.value))
      && (q.Ok? && !t.Ok? ==> t == Err(DestinationAmountTooLow))
      && (t.Ok? ==> t.value.net == q.value)
  {
  }

  /** What a successful `trade` settles: the venue's gross output split
      into fee and net, the fee at the billed partner's rate rounded down
      (nothing for an exempt trader), the net at least `minDestAmount`;
      an uncovered `amountIn` is refused before anything else. */
  lemma TradeSettlementOutcome(routes: seq<TradingRoute>, partners: seq<Partner>, market: Market, exempt: bool, traderBalance: nat,
                               routeIndex: nat, src: Asset, amountIn: nat, dest: Asset, minDestAmount: nat, partnerIndex: nat)
    requires |partners| > 0
    ensures var t := TradeSettlement(routes, partners, market, exempt, traderBalance, routeIndex, src, amountIn, dest, minDestAmount, partnerIndex);
      && (traderBalance < amountIn ==> t == Err(InsufficientBalance))
      && (t.Ok? ==>
            && RouteGross(routes, market, routeIndex, src, dest, amountIn) == Ok(t.value.gross)
            && t.value.fee + t.value.net == t.value.gross
            && minDestAmount <= t.value.net
            && (exempt ==> t.value.fee == 0)
            && (!exempt ==> t.value.fee * BpsDenominator <= t.value.gross * partners[t.value.partnerIndex].feeBps
                                                         < (t.value.fee + 1) * BpsDenominator))
  {
  }

  /** A split trade settles at the net its rate view quotes, with one fee
      taken on the summed gross of the legs. */
  lemma SplitTradeMatchesQuote(routes: seq<TradingRoute>, partners: seq<Partner>, market: Market, traderBalance: nat,
                               routeIndexes: seq<nat>, src: Asset, amountIns: seq<nat>, dest: Asset, minDestAmount: nat, partnerIndex: nat)
    requires |partners| > 0 && Sum(amountIns) <= traderBalance
    ensures var q := GetDestinationReturnAmountForSplitTrades(routes, partners, market, routeIndexes, src, amountIns, dest, partnerIndex);
            var t := SplitTradeSettlement(routes, partners, market, false, traderBalance, routeIndexes, src, Sum(amountIns), amountIns, dest,
                                          minDestAmount, partnerIndex);
      && (q.Err? ==> t == Err(q.error))
      && (q.Ok? ==> (t.Ok? <==> minDestAmount <= q.value))
      && (q.Ok? && !t.Ok? ==> t == Err(DestinationAmountTooLow))
      && (t.Ok? ==> t.value.net == q.value)
  {
  }

  /** What a successful `splitTrades` settles: the gross is the sum of the
      legs' gross outputs, and the fee is charged once, on that sum. */
  lemma SplitTradeOneFee(routes: seq<TradingRoute>, partners: seq<Partner>, market: Market, exempt: bool, traderBalance: nat,
                         routeIndexes: seq<nat>, src: Asset, totalAmountIn: nat, amountIns: seq<nat>, dest: Asset, minDestAmount: nat, partnerIndex: nat)
    requires |partners| > 0
    ensures var t := SplitTradeSettlement(routes, partners, market, exempt, traderBalance, routeIndexes, src, totalAmountIn, amountIns, dest,
                                          minDestAmount, partnerIndex);
      t.Ok? ==>
        && |routeIndexes| == |amountIns|
        && LegGrosses(routes, market, routeIndexes, src, dest, amountIns).Ok?
        && t.value.gross == Sum(LegGrosses(routes, market, routeIndexes, src, dest, amountIns).value)
        && t.value.fee == ChargedFee(t.value.gross, partners[t.value.partnerIndex].feeBps, exempt)
        && t.value.fee + t.value.net == t.value.gross
        && minDestAmount <= t.value.net
  {
  }

  /** `splitTrades` and its rate view refuse an empty route list and a
      route list whose length differs from the amount list, in that order,
      and the trade refuses amounts that do not add up to the total. */
  lemma SplitValidationErrors(routes: seq<TradingRoute>, partners: seq<Partner>, market: Market, exempt: bool, traderBalance: nat,
                              routeIndexes: seq<nat>, src: Asset, totalAmountIn: nat, amountIns: seq<nat>, dest: Asset, minDestAmount: nat, partnerIndex: nat)
    requires |partners| > 0
    ensures var q := GetDestinationReturnAmountForSplitTrades(routes, partners, market, routeIndexes, src, amountIns, dest, partnerIndex);
            var t := SplitTradeSettlement(routes, partners, market, exempt, traderBalance, routeIndexes, src, totalAmountIn, amountIns, dest,
                                          minDestAmount, partnerIndex);
      && (|routeIndexes| == 0 ==> q == Err(RoutesEmpty) && t == Err(RoutesEmpty))
      && (0 < |routeIndexes| != |amountIns| ==> q == Err(LengthMismatch) && t == Err(LengthMismatch))
      && (0 < |routeIndexes| == |amountIns| && Sum(amountIns) != totalAmountIn ==> t == Err(AmountsMismatch))
  {
  }

  /** The trader's loyalty-token balance when `trade` and `splitTrades`
      decide the exemption: after `amountIn` of `src` has been pulled into
      custody. A pull the trader cannot cover fails before the exemption
      matters, and the balance is then left as it is. */
  function LoyaltyAfterPull(sincoreToken: Address, held: nat, src: Asset, amountIn: nat): nat
  {
    if src == sincoreToken && amountIn <= held then held - amountIn else held
  }

  /** Selling any other asset leaves the exemption as `isEligibleForFreeTrade`
      reports it before the trade; selling the loyalty token itself exempts
      only a trader who still holds the threshold afterwards, so a trader
      holding exactly the threshold who sells some of it pays the fee. */
  lemma ExemptionAfterPull(sincoreToken: Address, eligibleAmount: nat, held: nat, src: Asset, amountIn: nat)
    ensures src != sincoreToken ==>
      EligibleForFreeTrade(sincoreToken, LoyaltyAfterPull(sincoreToken, held, src, amountIn), eligibleAmount)
        == EligibleForFreeTrade(sincoreToken, held, eligibleAmount)
    ensures src == sincoreToken && amountIn <= held ==>
      (EligibleForFreeTrade(sincoreToken, LoyaltyAfterPull(sincoreToken, held, src, amountIn), eligibleAmount) <==>
       sincoreToken != ZeroAddress && held >= eligibleAmount + amountIn)
    ensures src == sincoreToken && 0 < amountIn <= held == eligibleAmount ==>
      !EligibleForFreeTrade(sincoreToken, LoyaltyAfterPull(sincoreToken, held, src, amountIn), eligibleAmount)
  {
  }

  /** A partner index outside the table bills partner 0: its rate, its
      wallet, and index 0 in the `CollectFee` event. */
  lemma FallbackPartnerBilling(partners: seq<Partner>, gross: nat, exempt: bool, partnerIndex: nat, src: Asset, amountIn: nat, dest: Asset, trader: Address)
    requires |partners| > 0 && partnerIndex >= |partners|
    ensures var s := Settle(partners, gross, exempt, partnerIndex);
      && s.partnerIndex == 0 && s.wallet == partners[0].wallet
      && s.fee == ChargedFee(gross, partners[0].feeBps, exempt)
      && (s.fee > 0 ==> SettlementEvents(src, amountIn, dest, trader, s)[0] == CollectFeeEvent(0, dest, partners[0].wallet, s.fee))
  {
  }

  /** A settled trade emits `CollectFee` exactly when a fee is charged,
      before the `Trade` event, which reports the trader's net. */
  lemma FeeEventIffPositiveFee(src: Asset, amountIn: nat, dest: Asset, trader: Address, s: Settlement)
    ensures var e := SettlementEvents(src, amountIn, dest, trader, s);
      && (CollectFeeEvent(s.partnerIndex, dest, s.wallet, s.fee) in e <==> s.fee > 0)
      && (forall i :: 0 <= i < |e| && e[i].CollectFeeEvent? ==> s.fee > 0 && i == 0)
      && e[|e| - 1] == TradeEvent(src, amountIn, dest, s.net, trader)
  {
    var e := SettlementEvents(src, amountIn, dest, trader, s);
    if s.fee == 0 {
      assert e == [TradeEvent(src, amountIn, dest, s.net, trader)];
    }
  }

  /** A settled trade leaves the custodian's balances as they were: it
      changes only the trader's `src` and `dest` balances and the partner
      wallet's `dest` balance, and the wallet and trader together gain
      exactly the gross output. */
  lemma CustodianNeutral(custodian: Address, src: Asset, amountIn: nat, dest: Asset, trader: Address, s: Settlement)
    requires custodian != trader && custodian != s.wallet
    ensures forall a: Asset :: SettlementDelta(a, custodian, src, amountIn, dest, trader, s) == 0
    ensures forall a: Asset, w: Address :: SettlementDelta(a, w, src, amountIn, dest, trader, s) != 0 ==> w == trader || (w == s.wallet && a == dest)
    ensures src != dest && trader != s.wallet ==>
      SettlementDelta(dest, trader, src, amountIn, dest, trader, s) + SettlementDelta(dest, s.wallet, src, amountIn, dest, trader, s) == s.net + s.fee
  {
  }

  class SincoreSwap {
    /** The contract's own address, which holds funds in custody mid-trade. */
    const address: Address
    var owner: Address
    var routes: seq<TradingRoute>
    var partners: seq<Partner>
    /** The loyalty token (`SincoreToken`); the zero address when unset. */
    var sincoreToken: Address
    var eligibleAmount: nat
    /** Ether and token balances of every account, this contract included. */
    var balances: Balances
    /** Events emitted by this contract and by the venues it calls. */
    var events: seq<Event>

    /** Partner 0 always exists, and neither the owner nor a partner
        wallet is the contract itself. */
    ghost predicate Valid()
      reads this
    {
      && |partners| > 0
      && owner != address
      && forall i :: 0 <= i < |partners| ==> partners[i].wallet != address
    }

    /** Deployment: no routes, partner 0 named "Sincore" at 0.1% paying to
        `reserve`, no loyalty token and a threshold of 10 tokens. */
    constructor (address: Address, deployer: Address, reserve: Address, world: Balances)
      requires deployer != address && reserve != address
      ensures Valid()
      ensures this.address == address && owner == deployer && routes == []
      ensures partners == [Partner(reserve, DefaultFeeBps, "Sincore")]
      ensures sincoreToken == ZeroAddress && eligibleAmount == DefaultEligibleAmount
      ensures balances == world && events == []
    {
      this.address := address;
      owner := deployer;
      routes := [];
      partners := [Partner(reserve, DefaultFeeBps, "Sincore")];
      sincoreToken := ZeroAddress;
      eligibleAmount := DefaultEligibleAmount;
      balances := world;
      events := [];
    }

    /** The exemption `trade` and `splitTrades` apply: eligibility on the
        trader's loyalty balance once `amountIn` of `src` has left it. */
    function IsEligibleAfterPull(trader: Address, src: Asset, amountIn: nat): bool
      reads this
    {
      EligibleForFreeTrade(sincoreToken, LoyaltyAfterPull(sincoreToken, Balance(balances, sincoreToken, trader), src, amountIn), eligibleAmount)
    }

    /** `isEligibleForFreeTrade` against the current balances: a loyalty
        token is set and the trader holds at least the threshold of it. The
        view predicts the exemption of any trade that sells another asset. */
    function IsEligibleForFreeTrade(trader: Address): (eligible: bool)
      reads this
      ensures eligible <==> sincoreToken != ZeroAddress && eligibleAmount <= Balance(balances, sincoreToken, trader)
      ensures forall src: Asset, amountIn: nat :: src != sincoreToken ==> IsEligibleAfterPull(trader, src, amountIn) == eligible
    {
      EligibleForFreeTrade(sincoreToken, Balance(balances, sincoreToken, trader), eligibleAmount)
    }

    /** `trade`: pull `amountIn` of `src` from the trader into custody, swap
        it through one route, pay the fee to the partner wallet and the net
        to the trader. Any failure reverts the whole call. */
    method Trade(market: Market, trader: Address, routeIndex: nat, src: Asset, amountIn: nat, dest: Asset, minDestAmount: nat, partnerIndex: nat)
      returns (r: Result<nat>)
      requires Valid() && trader != address
      modifies this
      ensures Valid()
      ensures routes == old(routes) && partners == old(partners) && owner == old(owner)
      ensures sincoreToken == old(sincoreToken) && eligibleAmount == old(eligibleAmount)
      ensures var s := TradeSettlement(old(routes), old(partners), market, old(IsEligibleAfterPull(trader, src, amountIn)),
                                       old(Balance(balances, src, trader)), routeIndex, src, amountIn, dest, minDestAmount, partnerIndex);
        && (s.Err? ==> r == Err(s.error) && balances == old(balances) && events == old(events))
        && (s.Ok? ==>
              && r == Ok(s.value.net)
              && (forall a: Asset, w: Address {:trigger Balance(balances, a, w)} :: Balance(balances, a, w) == Balance(old(balances), a, w) + SettlementDelta(a, w, src, amountIn, dest, trader, s.value))
              && events == old(events) + [RouteTradeEvent(routeIndex, src, amountIn, dest, s.value.gross)]
                                       + SettlementEvents(src, amountIn, dest, trader, s.value))
    {
      ghost var outcome := TradeSettlement(routes, partners, market, IsEligibleAfterPull(trader, src, amountIn), Balance(balances, src, trader),
                                           routeIndex, src, amountIn, dest, minDestAmount, partnerIndex);
      if Balance(balances, src, trader) < amountIn {
        return Err(InsufficientBalance);
      }
      // Custody: the trader's funds move to the contract, then to the venue.
      var pulled := Transfer(balances, src, trader, address, amountIn);
      var g := RouteGross(routes, market, routeIndex, src, dest, amountIn);
      if g.Err? {
        return Err(g.error);
      }
      var swapped := Exchange(pulled, address, src, amountIn, dest, g.value);
      // The exemption is decided now, on what the trader holds after the pull.
      var exempt := EligibleForFreeTrade(sincoreToken, Balance(pulled, sincoreToken, trader), eligibleAmount);
      assert exempt == IsEligibleAfterPull(trader, src, amountIn);
      var s := Settle(partners, g.value, exempt, partnerIndex);
      if s.net < minDestAmount {
        assert outcome == Err(DestinationAmountTooLow);
        return Err(DestinationAmountTooLow);
      }
      assert outcome == Ok(s);
      MovedChain(balances, pulled, swapped, (src, trader), (src, address), (dest, address), amountIn, g.value);
      SettlementBalances(balances, swapped, address, trader, src, amountIn, dest, s);
      var l := PayOut(swapped, address, trader, dest, s);
      balances := l;
      events := events + [RouteTradeEvent(routeIndex, src, amountIn, dest, g.value)]
                       + SettlementEvents(src, amountIn, dest, trader, s);
      r := Ok(s.net);
    }

    /** `splitTrades`: pull `totalAmountIn` into custody, swap each leg through
        its route, sum the gross outputs, take one fee on the total and pay
        out. Any failing leg reverts the whole call. */
    method SplitTrades(market: Market, trader: Address, routeIndexes: seq<nat>, src: Asset, totalAmountIn: nat, amountIns: seq<nat>,
                       dest: Asset, minDestAmount: nat, partnerIndex: nat)
      returns (r: Result<nat>)
      requires Valid() && trader != address
      modifies this
      ensures Valid()
      ensures routes == old(routes) && partners == old(partners) && owner == old(owner)
      ensures sincoreToken == old(sincoreToken) && eligibleAmount == old(eligibleAmount)
      ensures var s := SplitTradeSettlement(old(routes), old(partners), market, old(IsEligibleAfterPull(trader, src, totalAmountIn)),
                                            old(Balance(balances, src, trader)), routeIndexes, src, totalAmountIn, amountIns, dest,
                                            minDestAmount, partnerIndex);
        && (s.Err? ==> r == Err(s.error) && balances == old(balances) && events == old(events))
        && (s.Ok? ==>
              && r == Ok(s.value.net)
              && (forall a: Asset, w: Address {:trigger Balance(balances, a, w)} :: Balance(balances, a, w) == Balance(old(balances), a, w) + SettlementDelta(a, w, src, totalAmountIn, dest, trader, s.value))
              && events == old(events)
                   + VenueEvents(routeIndexes, src, dest, amountIns, LegGrosses(routes, market, routeIndexes, src, dest, amountIns).value)
                   + SettlementEvents(src, totalAmountIn, dest, trader, s.value))
    {
      var exempt := IsEligibleAfterPull(trader, src, totalAmountIn);
      var outcome, l, log := ExecuteSplitTrade(market, trader, routeIndexes, src, totalAmountIn, amountIns, dest, minDestAmount, partnerIndex, exempt);
      if outcome.Err? {
        return Err(outcome.error);
      }
      balances := l;
      events := events + log;
      r := Ok(outcome.value.net);
    }

    /** The work of `splitTrades` on a copy of the balances: the argument
        checks, custody, the legs, the fee on the summed output, the
        slippage check and payout. Returns the settlement, the balances and
        the events to commit. */
    method ExecuteSplitTrade(market: Market, trader: Address, routeIndexes: seq<nat>, src: Asset, totalAmountIn: nat, amountIns: seq<nat>,
                             dest: Asset, minDestAmount: nat, partnerIndex: nat, exempt: bool)
      returns (r: Result<Settlement>, l: Balances, log: seq<Event>)
      requires Valid() && trader != address
      ensures r == SplitTradeSettlement(routes, partners, market, exempt, Balance(balances, src, trader), routeIndexes, src, totalAmountIn, amountIns,
                                        dest, minDestAmount, partnerIndex)
      ensures r.Ok? ==>
        && (forall a: Asset, w: Address {:trigger Balance(l, a, w)} :: Balance(l, a, w) == Balance(balances, a, w) + SettlementDelta(a, w, src, totalAmountIn, dest, trader, r.value))
        && log == VenueEvents(routeIndexes, src, dest, amountIns, LegGrosses(routes, market, routeIndexes, src, dest, amountIns).value)
                  + SettlementEvents(src, totalAmountIn, dest, trader, r.value)
    {
      if |routeIndexes| == 0 {
        return Err(RoutesEmpty), balances, [];
      }
      if |routeIndexes| != |amountIns| {
        return Err(LengthMismatch), balances, [];
      }
      if Sum(amountIns) != totalAmountIn {
        return Err(AmountsMismatch), balances, [];
      }
      if Balance(balances, src, trader) < totalAmountIn {
        return Err(InsufficientBalance), balances, [];
      }
      var pulled := Transfer(balances, src, trader, address, totalAmountIn);
      var legs, swapped := ExecuteLegs(market, routeIndexes, src, dest, amountIns, pulled);
      if legs.Err? {
        return Err(legs.error), balances, [];
      }
      var s := Settle(partners, Sum(legs.value), exempt, partnerIndex);
      if s.net < minDestAmount {
        return Err(DestinationAmountTooLow), balances, [];
      }
      MovedChain(balances, pulled, swapped, (src, trader), (src, address), (dest, address), totalAmountIn, s.gross);
      SettlementBalances(balances, swapped, address, trader, src, totalAmountIn, dest, s);
      l := PayOut(swapped, address, trader, dest, s);
      log := VenueEvents(routeIndexes, src, dest, amountIns, legs.value) + SettlementEvents(src, totalAmountIn, dest, trader, s);
      r := Ok(s);
    }

    /** The legs of `splitTrades` in order: each sends its amount of `src`
        from custody to its route's venue and receives the venue's gross
        output of `dest`. Works on a copy of the balances, so that a failing
        leg leaves nothing behind. */
    method ExecuteLegs(market: Market, routeIndexes: seq<nat>, src: Asset, dest: Asset, amountIns: seq<nat>, custody: Balances)
      returns (r: Result<seq<nat>>, l: Balances)
      requires |routeIndexes| == |amountIns|
      requires Sum(amountIns) <= Balance(custody, src, address)
      ensures r == LegGrosses(routes, market, routeIndexes, src, dest, amountIns)
      ensures r.Ok? ==> Moved(l, custody, (dest, address), Sum(r.value), (src, address), Sum(amountIns))
    {
      l := custody;
      var grosses: seq<nat> := [];
      var i := 0;
      while i < |routeIndexes|
        invariant 0 <= i <= |routeIndexes| && |grosses| == i
        invariant forall t :: 0 <= t < i ==> RouteGross(routes, market, routeIndexes[t], src, dest, amountIns[t]) == Ok(grosses[t])
        invariant Moved(l, custody, (dest, address), Sum(grosses), (src, address), Sum(amountIns[..i]))
      {
        var g := RouteGross(routes, market, routeIndexes[i], src, dest, amountIns[i]);
        if g.Err? {
          LegGrossesFirstFailure(routes, market, routeIndexes, src, dest, amountIns, i);
          return Err(g.error), l;
        }
        SumPrefix(amountIns, i + 1);
        SumPrefixStep(amountIns, i);
        SumSnoc(grosses, g.value);
        assert Balance(l, src, address) == Balance(custody, src, address) + (if (src, address) == (dest, address) then Sum(grosses) else 0) - Sum(amountIns[..i]);
        var next := Exchange(l, address, src, amountIns[i], dest, g.value);
        MovedAdd(custody, l, next, (dest, address), (src, address), Sum(grosses), Sum(amountIns[..i]), g.value, amountIns[i]);
        l := next;
        grosses := grosses + [g.value];
        i := i + 1;
      }
      assert amountIns[..i] == amountIns;
      LegGrossesOfQuotes(routes, market, routeIndexes, src, dest, amountIns, grosses);
      r := Ok(grosses);
    }

    /** `updateEligibleAmount`: owner only; sets the exemption threshold and
        emits `UpdateEligibleAmount`. */
    method UpdateEligibleAmount(caller: Address, amount: nat) returns (r: Result<()>)
      requires Valid()
      modifies this
      ensures Valid()
      ensures caller != old(owner) ==> r == Err(NotOwner) && unchanged(this)
      ensures caller == old(owner) ==>
        && r == Ok(()) && eligibleAmount == amount
        && events == old(events) + [UpdateEligibleAmountEvent(amount)]
        && owner == old(owner) && routes == old(routes) && partners == old(partners)
        && sincoreToken == old(sincoreToken) && balances == old(balances)
    {
      if caller != owner {
        return Err(NotOwner);
      }
      eligibleAmount := amount;
      events := events + [UpdateEligibleAmountEvent(amount)];
      r := Ok(());
    }

    /** `updateSincoreToken`: owner only; sets the loyalty token and emits
        `UpdateSincoreToken`. */
    method UpdateSincoreToken(caller: Address, token: Address) returns (r: Result<()>)
      requires Valid()
      modifies this
      ensures Valid()
      ensures caller != old(owner) ==> r == Err(NotOwner) && unchanged(this)
      ensures caller == old(owner) ==>
        && r == Ok(()) && sincoreToken == token
        && events == old(events) + [UpdateSincoreTokenEvent(token)]
        && owner == old(owner) && routes == old(routes) && partners == old(partners)
        && eligibleAmount == old(eligibleAmount) && balances == old(balances)
    {
      if caller != owner {
        return Err(NotOwner);
      }
      sincoreToken := token;
      events := events + [UpdateSincoreTokenEvent(token)];
      r := Ok(());
    }

    /** `collectRemainingToken`: owner only; sweeps `amount` of a stray
        balance of `token` from the contract to the owner. */
    method CollectRemainingToken(caller: Address, token: Asset, amount: nat) returns (r: Result<()>)
      requires Valid()
      modifies this
      ensures Valid()
      ensures caller != old(owner) ==> r == Err(NotOwner) && unchanged(this)
      ensures caller == old(owner) && amount > old(Balance(balances, token, address)) ==> r == Err(InsufficientBalance) && unchanged(this)
      ensures caller == old(owner) && amount <= old(Balance(balances, token, address)) ==>
        && r == Ok(())
        && balances == Transfer(old(balances), token, address, owner, amount)
        && Balance(balances, token, address) == old(Balance(balances, token, address)) - amount
        && Balance(balances, token, owner) == old(Balance(balances, token, owner)) + amount
        && events == old(events) && owner == old(owner) && routes == old(routes) && partners == old(partners)
        && sincoreToken == old(sincoreToken) && eligibleAmount == old(eligibleAmount)
    {
      if caller != owner {
        return Err(NotOwner);
      }
      if amount > Balance(balances, token, address) {
        return Err(InsufficientBalance);
      }
      balances := Transfer(balances, token, address, owner, amount);
      r := Ok(());
    }

    /** `collectRemainingEther`: the same sweep for ether. */
    method CollectRemainingEther(caller: Address, amount: nat) returns (r: Result<()>)
      requires Valid()
      modifies this
      ensures Valid()
      ensures caller != old(owner) ==> r == Err(NotOwner) && unchanged(this)
      ensures caller == old(owner) && amount > old(Balance(balances, EtherAsset, address)) ==> r == Err(InsufficientBalance) && unchanged(this)
      ensures caller == old(owner) && amount <= old(Balance(balances, EtherAsset, address)) ==>
        && r == Ok(())
        && balances == Transfer(old(balances), EtherAsset, address, owner, amount)
        && Balance(balances, EtherAsset, address) == old(Balance(balances, EtherAsset, address)) - amount
        && Balance(balances, EtherAsset, owner) == old(Balance(balances, EtherAsset, owner)) + amount
        && (forall a: Asset, w: Address :: (a, w) != (EtherAsset, address) && (a, w) != (EtherAsset, owner) ==>
              Balance(balances, a, w) == old(Balance(balances, a, w)))
        && events == old(events) && owner == old(owner) && routes == old(routes) && partners == old(partners)
        && sincoreToken == old(sincoreToken) && eligibleAmount == old(eligibleAmount)
    {
      r := CollectRemainingToken(caller, EtherAsset, amount);
    }
  }
}
